=== FILE: README.md ===
# Pac-Man game core and ranking store, in Dafny

This project models the simulation core of a browser Pac-Man game and the
small service that keeps its global high-score ranking.

The game runs on a 21 x 21 grid of 24-pixel tiles. The grid cells are
EMPTY, WALL, DOT, POWER (the power cherry) and GHOST_DOOR. The entities are:

- **Pac-Man.** It moves in its current direction. At each tile centre it
  takes a queued direction if that way is open, and stops when a wall is
  ahead. It eats the DOT or POWER cell it lands on, rewriting that map cell
  in place.
- **Four ghosts.** Each one goes through four phases:
  - waiting in the house until a staggered delay runs out;
  - walking out through the door;
  - roaming, where at every tile centre it picks the non-reversing direction
    that brings it closest to its target (the player, or when frightened the
    corner farthest from the player), with a dead-end fallback;
  - after being eaten, flying straight back home.
- **A wandering mushroom.** It appears on a random open tile and wanders
  until its lifetime runs out.

The orchestrator loads a level by copying its template and counting its
pellets. Each frame it moves the player and the ghosts, resolves collisions
(eat a frightened ghost, or lose a life), awards the level bonus and
advances the level, and runs the frightened timer down. The browser's
delayed callbacks become explicit transition methods.

The ranking service files each submission under the player's name, trimmed
and upper-cased. It keeps the best score and the best level for each name,
plus the date of the last submission, and lists the top ten by score. It is
served in two ways:

- an Express router, which checks fields with `== null`;
- a Netlify function, which connects first, normalises the request path,
  dispatches on method and path, and checks fields with `=== undefined`.

The modelling choices are:

- Pixel positions are integers.
- Each entity's displacement in a frame is an input: `PacStrides`, `GhostStrides` and the mushroom's `step`. The game derives it from floating-point speeds.
- Time is an integer number of milliseconds.
- The maze is an `array2<int>` that pickups write in place. Level templates are `seq<seq<int>>`.
- Random draws are caller-supplied rolls.
- The database connection state (`Db`) and the clock (`now`) are parameters.
- The collection is a `map` from normalised name to record, held in the `RankingStore` class.

## Behaviour as written

These points follow the code where it differs from the game's design:

- **The pellet counter counts POWER cells.** `loadLevel` counts both DOT and
  POWER cells into `dotsRemaining`, but a move only reports DOTs as eaten. A
  level whose template holds a POWER cell therefore never completes
  (`PowerBlocksCompletion`, `CounterMeaning`). The model keeps this as
  written.
- **A ghost is worth a flat 200 points.** Eating several ghosts in one
  frightened period does not double the reward.
- **Frightened mode skips ghosts that are eaten when it starts.** It marks
  every ghost that is not eaten at that moment, ghosts still waiting in the
  house included. A ghost that is eaten at that moment, or during the
  period, is not marked again when it comes back home.
- **The engine makes a new Pac-Man rather than resetting one.** On a level
  load and after a lost life it builds a fresh Pac-Man and fresh ghosts.
  `PacMan.reset` itself does not clear the speed-boost timer.
- **The engine has no mushroom.** It never spawns one and never runs the
  mushroom-power countdown. The mushroom and Pac-Man's mushroom timer are
  modelled as their own classes and methods.
- **More than one life can be lost in a frame.** The collision loop goes on
  after a lost life, so several ghosts touching the player in the same frame
  each take a life. The same loop can also end the game.
- **A zero-length roaming step still snaps.** When a ghost reaches the exit
  row it steers without moving. It still snaps to the tile centre.
- **The two services validate differently.** The router rejects a null score
  or level. The Netlify function accepts them and stores them as 0
  (`RejectionsCompared`).
- **The Netlify function connects before routing.** Without a database every
  request gets 500, including unknown paths and invalid submissions. The
  router validates before it connects.
- **Only one kind of name fails the trim.** A truthy name that is not a
  string makes the call to trim fail, which gives 500. Every falsy name is
  rejected earlier with 400.

## Model

| member | source | states |
|---|---|---|
| Entities.TileOf | public/js/Entity.js:15-20 | the tile of a pixel coordinate is the t with t*24 <= p < t*24+24 (floor division, negatives included) |
| Entities.TileOfUnique | public/js/Entity.js:15-20 | any tile bracketing the pixel is the one `getTile` returns |
| Entities.Centre | public/js/Entity.js:7-12 | the centre pixel t*24+12 lies in tile t |
| Entities.Near | public/js/Entity.js:23-27 | a coordinate is near a centre exactly when it lies within 2 px of some tile centre |
| Entities.AtCentre | public/js/Entity.js:23-27 | the entity is at a tile centre exactly when each coordinate lies within 2 px of some tile centre; `Mushroom.IsAtTileCenter` (Mushroom.js:37-41, the same test) is this predicate of the mushroom's position |
| Entities.NearAnyCentre | public/js/Entity.js:23-27 | a coordinate within 2 px of a tile's centre is near the centre of its own tile, and that tile is the one |
| Entities.Snapped | public/js/Entity.js:30-33 | snapping keeps the tile, lands exactly on its centre and moves at most half a tile |
| Entities.SnapIdempotent | public/js/Entity.js:30-33 | snapping twice is snapping once |
| Entities.Wrapped | public/js/Entity.js:36-39 | after the wrap x is in [-12, CANVAS_W+12]; inside that band x is unchanged, past the left edge it jumps to the right edge and past the right edge to the left |
| Entities.WrapIdempotent | public/js/Entity.js:36-39 | wrapping a wrapped x changes nothing (no double wrap) |
| Entities.Entity.constructor | public/js/Entity.js:7-12 | the entity starts at its tile's centre, stopped, so `GetTile` returns the given tile and it is at a tile centre |
| Entities.Entity.GetTile | public/js/Entity.js:15-20 | the returned tile contains the position on both axes |
| Entities.Entity.IsAtTileCenter | public/js/Entity.js:23-27 | holds exactly when both coordinates lie within 2 px of the centre of the tile `GetTile` returns |
| Entities.Entity.SnapToCenter | public/js/Entity.js:30-33 | the position becomes the centre of the same tile and the entity is at a tile centre |
| Entities.Entity.TunnelWrap | public/js/Entity.js:36-39 | x is wrapped, y and the direction never change |
| Grids.SnapshotAfterWrite | public/js/PacMan.js:160 | writing one map cell changes the map's contents in exactly that cell |
| Grids.PelletsSplit | public/js/GameEngine.js:131-135 | the pellet count is the DOT count plus the POWER count |
| Grids.CountUpdate | public/js/PacMan.js:159-163 | rewriting one cell moves the count of a cell code by that cell's old and new code only |
| Grids.CountPositive | public/js/GameEngine.js:133 | a map holding a cell of some code counts it at least once |
| Grids.CountAbsent | public/js/GameEngine.js:131-135 | a map holding no cell of some code counts it zero times |
| Player.IsWalkable | public/js/PacMan.js:215-222 | an out-of-range column is walkable (tunnel), an out-of-range row is not, and in the grid exactly the cells other than WALL and GHOST_DOOR are |
| Player.Stride | public/js/PacMan.js:66-70 | the mushroom power takes precedence over the speed boost, which takes precedence over the base speed |
| Player.Decide | public/js/PacMan.js:102-130 | a queued direction is adopted (and the queue cleared) exactly when it is set, the column is inside the grid and its target tile is walkable; otherwise the queue stays and the player continues if the way ahead is walkable and stops if not; a resulting direction always leads to a walkable tile |
| Player.BlockedAtCentreStops | public/js/PacMan.js:90-130 | at a tile centre with nothing queued and the way ahead blocked, the frame is a decision point and the player stops |
| Player.MouthStep | public/js/PacMan.js:146-149 | the mouth opening stays within [0, 100] hundredths; a step past 100 stops at 100 and starts closing, a step below 0 stops at 0 and starts opening, and any other step moves 15 in its sense, keeping it |
| Player.Pickup | public/js/PacMan.js:156-174 | a DOT becomes EMPTY for 10 points (20 under the mushroom power) and counts as one dot; a POWER cell is eaten for 50 points and raises the power flag only with no mushroom power and no speed boost, otherwise it stays; any other cell stays as it is and scores nothing |
| Player.Countdown | public/js/PacMan.js:184-189 | a running timer drops by the frame time and is clamped to exactly 0 when it runs out; a stopped timer stays as it is |
| Player.PacMan.constructor | public/js/PacMan.js:19-28 | Pac-Man starts at the centre of its start tile, stopped, with nothing queued, mouth closed and opening, all timers 0 and no mushroom power |
| Player.PacMan.GetTile | public/js/Entity.js:15-20 | the player's tile contains its position on both axes, as the inherited `getTile` |
| Player.PacMan.Reset | public/js/PacMan.js:35-45 | the same start state, except that the speed-boost timer is left as it was |
| Player.PacMan.Move | public/js/PacMan.js:60-177 | stopped with nothing queued, nothing changes and the result is zero; otherwise the direction, queue and position follow the decision point and the tunnel wrap, the mouth advances, the landing cell is picked up as `Pickup` says and no other cell changes, and the map's DOT count drops by exactly the dots reported; the same frame is also stated as the value relation `Moved` between the old and new player and map |
| Player.PacMan.Advance | public/js/PacMan.js:66-176 | one moving frame: movement, wrap, mouth animation and pickup as in `Move`, with the movement stated as `Travelled` and the pickup as `PickedUp`, the two parts of `Moved` |
| Player.PacMan.Glide | public/js/PacMan.js:66-149 | the movement and wrap of a moving frame (the `Travelled` part of `Moved`) followed by one mouth step; the map is only read |
| Player.PacMan.Travel | public/js/PacMan.js:72-144 | at a decision point Pac-Man snaps, decides, moves one stride in the new direction and wraps; elsewhere it moves one stride straight on and wraps |
| Player.PacMan.Steer | public/js/PacMan.js:72-141 | the same movement before the tunnel wrap |
| Player.PacMan.ReachesDecision | public/js/PacMan.js:81-100 | the frame is a decision point exactly when the stride crosses or reaches the tile centre in the direction of travel, or Pac-Man is already near the centre with a direction queued or a wall ahead |
| Player.PacMan.TurnAt | public/js/PacMan.js:107-130 | the new direction and queue are those `Decide` gives |
| Player.PacMan.AnimateMouth | public/js/PacMan.js:146-149 | the mouth advances by `MouthStep` |
| Player.PacMan.Collect | public/js/PacMan.js:151-176 | the landing cell is rewritten and scored by `Pickup`, a tile outside the grid scores nothing, no other cell changes, and the DOT count drops by the dots reported |
| Player.PacMan.UpdateBoost | public/js/PacMan.js:184-189 | the speed-boost timer counts down and never goes negative |
| Player.PacMan.UpdateMushroomPower | public/js/PacMan.js:196-204 | the mushroom timer counts down and the mushroom power is lost exactly when a running timer reaches 0 |
| Ghosts.PhaseOf | public/js/Ghost.js:68-89 | the flags select exactly one phase: waiting (not exited, not exiting), exiting, returning (exited and eaten), roaming (exited, not eaten); `Ghost.CurrentPhase` reads it off the ghost's own flags |
| Ghosts.IsWalkable | public/js/Ghost.js:277-287 | an out-of-range column is walkable, an out-of-range row is not, a WALL never is, the door only for a ghost that has not exited, every other cell always is |
| Ghosts.GreedyStepKeepsBest | public/js/Ghost.js:229-244 | one pass of the direction loop keeps the choice the strictly closest non-reversing walkable direction seen so far, the earliest on ties |
| Ghosts.GreedyFromKeepsBest | public/js/Ghost.js:229-244 | running the rest of the loop keeps that property up to all four directions |
| Ghosts.GreedySpec | public/js/Ghost.js:223-245 | the greedy choice is empty exactly when no non-reversing walkable direction exists; otherwise it is one, no other candidate is closer to the target, and every earlier direction in Up, Down, Left, Right order is strictly farther |
| Ghosts.FirstWalkableSpec | public/js/Ghost.js:246-254 | the fallback is empty exactly when no direction is walkable, and otherwise is the first walkable direction in the fixed order |
| Ghosts.FarthestFromSpec | public/js/Ghost.js:207-217 | the corner scan ends on a corner at maximal squared distance from the player, the earliest such corner |
| Ghosts.FleeTargetSpec | public/js/Ghost.js:198-217 | the flee target is the first corner farthest from the player's tile |
| Ghosts.SteeringSpec | public/js/Ghost.js:223-256 | the steering never reverses when another way is open, always leads to a walkable tile when any exists, and keeps the direction when the ghost is walled in |
| Ghosts.ChooseDirection | public/js/Ghost.js:223-245 | the loop computes the greedy choice |
| Ghosts.FirstWalkable | public/js/Ghost.js:247-254 | the loop computes the first walkable direction |
| Ghosts.SteerAt | public/js/Ghost.js:223-256 | greedy choice, then the fallback, then the old direction, as `Steering` |
| Ghosts.FarthestCorner | public/js/Ghost.js:198-217 | the loop computes the flee target |
| Ghosts.Ghost.GetTile | public/js/Entity.js:15-20 | the ghost's tile contains its position on both axes, as the inherited `getTile` |
| Ghosts.Ghost.constructor | public/js/Ghost.js:23-36 | a ghost starts on its home tile facing up, waiting, with no flags set and its staggered exit delay |
| Ghosts.Ghost.Reset | public/js/Ghost.js:48-59 | the same start state |
| Ghosts.Ghost.Update | public/js/Ghost.js:68-89 | one frame follows the phase the ghost was in: waiting, walking out, returning home or roaming at the phase's displacement (`Stepped`) |
| Ghosts.Ghost.WaitInHouse | public/js/Ghost.js:96-111 | the exit delay runs down on the home tile; once it is spent the ghost starts exiting from the door column, facing up, one pixel higher |
| Ghosts.Ghost.WalkOutDoor | public/js/Ghost.js:120-134 | the ghost climbs the door column; on reaching the exit row it stops exactly there, has exited, and steers towards its target without moving |
| Ghosts.Ghost.ReturnHome | public/js/Ghost.js:142-171 | within 4 px of home on both axes the ghost lands home, waits again with every flag cleared and a 3000 ms delay; otherwise it closes in on the axis with the larger gap, with the diagonal nudge while moving vertically |
| Ghosts.Ghost.MoveInMaze | public/js/Ghost.js:188-265 | at a tile centre the ghost snaps and steers towards its target; it moves and wraps only when time has passed; its flags never change |
| Ghosts.Ghost.TurnAtCentre | public/js/Ghost.js:193-257 | the ghost is snapped and its direction is the steering for its tile and target |
| Mushrooms.IsWalkable | public/js/Mushroom.js:99-106 | the mushroom may enter exactly the in-grid cells other than WALL and GHOST_DOOR (no tunnel) |
| Mushrooms.OpenDirs | public/js/Mushroom.js:113-121 | the open directions are exactly the moving directions leading to an enterable tile, at most four |
| Mushrooms.SpawnListUnique | public/js/Mushroom.js:57-68 | the list of spawn tiles in row-major order is determined by the map |
| Mushrooms.CollectSpawnTiles | public/js/Mushroom.js:58-68 | the nested scan lists every interior EMPTY or DOT tile, and only those, in row-major order |
| Mushrooms.Mushroom.constructor | public/js/Mushroom.js:13-20 | the mushroom starts inactive at the origin, stopped, with no lifetime |
| Mushrooms.Mushroom.GetTile | public/js/Mushroom.js:26-31 | the returned tile contains the position |
| Mushrooms.Mushroom.SnapToCenter | public/js/Mushroom.js:46-49 | the mushroom moves to the centre of its own tile |
| Mushrooms.Mushroom.Deactivate | public/js/Mushroom.js:86-89 | the mushroom becomes inactive and stopped |
| Mushrooms.Mushroom.ChooseRandomDirection | public/js/Mushroom.js:112-128 | the roll picks one of the open directions; it stops exactly when none is open; a chosen direction is always open |
| Mushrooms.Mushroom.Spawn | public/js/Mushroom.js:57-81 | with no spawn tile nothing changes; otherwise the mushroom appears active at the centre of the spawn tile the roll picks, with the given lifetime and a direction picked among the open ones |
| Mushrooms.Mushroom.Update | public/js/Mushroom.js:137-177 | an inactive mushroom is unchanged; the lifetime drops by the frame time and at 0 the mushroom deactivates in place; a stopped one only picks a direction; at a tile centre it snaps and re-picks when blocked or when the 3% roll fires; then it moves one step |
| Engine.PrizeTitle | public/js/GameEngine.js:250-253 | the title is Legend from 15000 points, Champion from 10000, Master from 5000 and Warrior below |
| Engine.PrizeTitleMonotonic | public/js/GameEngine.js:250-253 | a higher score never earns a lower title |
| Engine.CopyTemplate | public/js/GameEngine.js:129 | the level map is a fresh copy holding exactly the template |
| Engine.NewGhosts | public/js/GameEngine.js:160 | four fresh ghosts with indices 0 to 3, each in its start state |
| Engine.GameEngine.constructor | public/js/GameEngine.js:40-55 | score 0, 3 lives, level 0, no pellets counted, not running, not paused, frightened timer 0 |
| Engine.GameEngine.ResetPositions | public/js/GameEngine.js:156-161 | a new Pac-Man and four new ghosts, all in their start states |
| Engine.GameEngine.LoadLevel | public/js/GameEngine.js:124-143 | the maze is a fresh copy of the level's template, the counter holds its DOT and POWER cells, the entities are reset, the game is paused and not running, and score, lives and level are kept |
| Engine.GameEngine.ResetLevel | public/js/GameEngine.js:128-137 | the same maze, counter and entity reset |
| Engine.GameEngine.InstallMaze | public/js/GameEngine.js:128-135 | the maze is a fresh copy of the template and the counter is its DOT count plus its POWER count |
| Engine.GameEngine.CountPellets | public/js/GameEngine.js:130-135 | the nested loop counts the DOT and POWER cells of the maze |
| Engine.GameEngine.StartGame | public/js/GameEngine.js:115-121 | score 0, 3 lives, level 0, and the first level loaded |
| Engine.GameEngine.OnBannerTimeout | public/js/GameEngine.js:144-152 | after the banner the game runs, unpaused, with the frightened timer cleared |
| Engine.GameEngine.OnRespawnTimeout | public/js/GameEngine.js:206-209 | after a lost life the entities are new and in their start states, and the game is unpaused |
| Engine.GameEngine.OnLevelAdvanceTimeout | public/js/GameEngine.js:228 | the current level is loaded again from its template, keeping score, lives and level |
| Engine.GameEngine.ActivateFrightened | public/js/GameEngine.js:171-183 | the frightened timer is 7000, the speed boost 5000, and every ghost not eaten becomes frightened, reversing if it has exited; eaten ghosts are unchanged |
| Engine.Touching | public/js/GameEngine.js:189-193 | the player and a ghost touch exactly when the squared distance of their centres is at most 282 px (16.8 px = 0.7 tile); touching implies an offset under 17 px on each axis, and offsets under 12 px on both axes always touch |
| Engine.CaughtSplit | public/js/GameEngine.js:187-213 | in one collision check the ghosts eaten and the ghosts that take a life add up to the ghosts caught |
| Engine.GameEngine.CollideWith | public/js/GameEngine.js:187-213 | a ghost that has exited, is not eaten and is within 0.7 tile is eaten for 200 points if frightened, and otherwise costs a life, ending the game at 0 lives or pausing it |
| Engine.GameEngine.CheckCollisions | public/js/GameEngine.js:186-214 | the score rises by 200 per frightened ghost caught and the lives drop by one per other ghost caught; the game ends if a hit leaves no life, and it pauses if it had more than one life at the start of the frame; each ghost changes as `CollideWith` says |
| Engine.GameEngine.GameOver | public/js/GameEngine.js:234-243 | the game stops running |
| Engine.GameEngine.CheckLevelComplete | public/js/GameEngine.js:217-231 | with pellets left nothing changes; otherwise the game stops, the bonus 500 x (level+1) is added, and the level advances unless it was the last |
| Engine.GameEngine.CalmGhosts | public/js/GameEngine.js:305 | every ghost stops being frightened, with nothing else changed |
| Engine.GameEngine.TickFrightened | public/js/GameEngine.js:300-307 | the frightened timer counts down; when a running timer reaches 0 every ghost is calmed, otherwise no ghost changes |
| Engine.GameEngine.PlayerStep | public/js/GameEngine.js:286-290 | the player, the maze and the move result are related by `Moved` exactly as `PacMan.Move` states it; score and counter follow the move result; eating a POWER cell starts frightened mode and the boost, after which the boost counts down once; the mushroom power and its timer are kept |
| Engine.GameEngine.MoveAndEat | public/js/GameEngine.js:286-288 | the player, the maze and the move result are related by `Moved` exactly as `PacMan.Move` states it; the score rises by the move's score and the counter drops by the dots eaten; the speed boost, the mushroom power and its timer are kept |
| Engine.GameEngine.MoveGhosts | public/js/GameEngine.js:293-294 | every ghost takes one `Update` step towards the player's tile |
| Engine.GameEngine.GameLoop | public/js/GameEngine.js:278-310 | a stopped or paused game changes nothing; otherwise a frame capped at 50 ms is played, the score never drops, at most four lives are lost, the level rises by at most one and at most one pellet is counted off |
| Engine.GameEngine.PlayFrame | public/js/GameEngine.js:284-310 | the same bounds for a running frame |
| Engine.GameEngine.MoveEntities | public/js/GameEngine.js:285-294 | the movement half never lowers the score and counts off at most one pellet |
| Engine.GameEngine.Resolve | public/js/GameEngine.js:296-307 | the rules half never lowers the score, loses at most four lives and advances at most one level |
| Engine.GameEngine.PowerBlocksCompletion | public/js/GameEngine.js:131-135 | a level loaded with a POWER cell keeps a positive counter whatever is eaten |
| Engine.GameEngine.CounterMeaning | public/js/GameEngine.js:217-218 | the counter is spent exactly when no DOT is left on the maze and the template had no POWER cell |
| Rankings.MaxNum | routes/rankings.js:89 | `$max` keeps one of the two values, at least as large as both in the database's order (NaN lowest) |
| Rankings.MaxNumSwap | routes/rankings.js:89 | `$max` does not depend on the order of the values |
| Rankings.TrimStart | routes/rankings.js:84 | the result is a suffix, everything cut is white space, and it does not start with white space |
| Rankings.TrimEnd | routes/rankings.js:84 | the result is a prefix, everything cut is white space, and it does not end with white space |
| Rankings.Trim | routes/rankings.js:84 | the result is a slice of the name with only white space around it, and neither of its ends is white space |
| Rankings.TrimTight | routes/rankings.js:84 | trimming a string without white space at its ends changes nothing |
| Rankings.Normalise | routes/rankings.js:84 | the key is the trimmed name with each character upper-cased: as long as the trimmed name, character by character its upper case; hence no longer than the name, with no white space at its ends and no lower-case letter |
| Rankings.SameKeyIffCaseEqual | routes/rankings.js:84 | two names are filed under the same key exactly when their trimmed texts are equal up to ASCII case |
| Rankings.NormaliseIdempotent | routes/rankings.js:84 | normalising a key again gives the same key |
| Rankings.ParseNumber | routes/rankings.js:89 | `Number` on text: surrounding white space is ignored, blank text is 0, an optionally signed run of decimal digits is its value, and anything else is NaN |
| Rankings.ToNumber | routes/rankings.js:89 | `Number` on a field: absent is NaN, null and false are 0, true is 1, a number is itself and text is parsed |
| Rankings.ParseShowRoundTrip | routes/rankings.js:89 | a score sent as its decimal text converts to the same number as when sent as a number |
| Rankings.Upserted | routes/rankings.js:86-94 | the upsert adds the key if missing with the submitted values; an existing key keeps its name and gets the `$max` of score and of level; the date is always the new one; no other entry changes |
| Rankings.UpsertMonotone | routes/rankings.js:89 | a stored score or level never goes down, and ends at least the submitted one |
| Rankings.UpsertIdempotent | routes/rankings.js:86-94 | the same submission twice leaves the collection as once |
| Rankings.UpsertOrderIndependent | routes/rankings.js:86-94 | two submissions under one key leave the same score and level in either order; only the date is the later one's |
| Rankings.CaseInsensitiveScenario | routes/rankings.js:84-94 | ("AA", 100, 2) then ("aa", 50, 5) leave exactly one entry, "AA", with score 100 and level 5 |
| Rankings.RankingStore.Upsert | routes/rankings.js:86-94 | the collection becomes the upserted one and every entry stays filed under its own normalised name |
| Rankings.RankingStore.Submit | routes/rankings.js:84-94 | the submission is filed under the normalised name with the converted score and level |
| Rankings.RankingStore.BestKey | routes/rankings.js:55 | the chosen key scores at least as high as every other candidate |
| Rankings.RankingStore.TopTen | routes/rankings.js:53-57 | ten entries (all, when fewer), each from the collection and listed once, in non-increasing score, and no entry left out scores above one listed |
| Rankings.RankedStep | routes/rankings.js:53-57 | moving a best remaining entry to the end of the list keeps the list sorted and ahead of all remaining entries |
| Rankings.RouterRejects | routes/rankings.js:78 | the router refuses a falsy name, or a score or level that is null or absent |
| Rankings.Post | routes/rankings.js:74-100 | a falsy name or a null or absent score or level gives 400 with no write; then a missing connection gives 500; then a name that is not a string gives 500; then a failing update gives 500 with its error; otherwise the submission is upserted and acknowledged; only the last case writes |
| Rankings.Get | routes/rankings.js:50-62 | without a connection 500 with the connection error; a failing query 500 with its error; otherwise 200 with a top ten of the collection |
| Rankings.Test | routes/rankings.js:107-124 | 200 with the connection report exactly when the connection and the count succeed; otherwise 500 with `status: "error"` and the connection or count error; never the any-origin header |
| Rankings.EmptyListing | routes/rankings.js:50-62 | an empty collection lists as an empty sequence with status 200, not as an error |
| NetlifyApi.IndexFrom | netlify/functions/api.js:26 | the search finds the first occurrence of the pattern at or after the start, or reports that there is none |
| NetlifyApi.RemoveFirst | netlify/functions/api.js:26 | the first occurrence of the pattern is cut out, and a string without it is unchanged |
| NetlifyApi.StripApi | netlify/functions/api.js:26 | a leading `/api` is removed, and a path without one is unchanged |
| NetlifyApi.NormalisePath | netlify/functions/api.js:26 | the routed path is the request path with the first occurrence of the function's prefix cut out, then a leading `/api` |
| NetlifyApi.RedirectedPath | netlify/functions/api.js:26 | a path behind the function's prefix routes on what follows the prefix, less a leading `/api` |
| NetlifyApi.ApiPrefixDropped | netlify/functions/api.js:26 | `/api` + q routes on q when the function's prefix does not occur |
| NetlifyApi.RouteOf | netlify/functions/api.js:29-98 | GET `/test` or `/test/` is the diagnostic, GET `/rankings` or `/rankings/` the listing, POST on those the submission, and anything else no route |
| NetlifyApi.HandlerRejects | netlify/functions/api.js:68 | the function refuses a falsy name, or a score or level that is absent; null passes |
| NetlifyApi.RejectionsCompared | netlify/functions/api.js:68-74 | every submission the function rejects the router rejects too, and a null score passes the function (stored as 0) but not the router |
| NetlifyApi.Handle | netlify/functions/api.js:16-108 | no connection gives 500 for every request; otherwise 404 carrying the normalised path, the diagnostic, the top ten, or for a submission: 500 on an unparsable body, 400 on a missing field, 500 on a non-string name, else the upsert and 200; a failing count, query or update gives 500 with its error; only an accepted submission writes |

## Left out

- Rendering (`Renderer.js`), keyboard and touch input (`InputHandler.js`), the HUD, screens and messages, and the `RankingService.js` fetch calls are not part of this model. Input appears only as the value of `nextDir`.
- `server.js` and its SQLite store are not part of this model. `netlify/functions/rankings.js` is not part of this model either. Its listing and submission steps are the same as the list and submit branches of `Handle`, but its dispatch is not modelled: it routes on the HTTP method alone, with no path check, and answers 405 for any other method. The development tooling is left out too: hot reload, port killing, bootstrapping and the serverless bridge.
- The MongoDB connection singletons (`getDb`, `getClient`) are not modelled. Their outcome is the `Db` parameter on each request, so a connection once made is not remembered between requests. The diagnostic's latency and timestamp read the clock and are left out.
- `requestAnimationFrame`, `setTimeout`, `performance.now` and frame timestamps are not modelled. Each delayed callback is a transition method, and the frame time is the `rawDtMs` input.
- Floating-point speeds and multipliers (2.2, 2.1, x0.6, x1.5, x1.7, x3, `dt*60`) are not modelled. Each frame's integer displacement is an input instead. The ghosts' 0.016 s stand-in for a zero frame time is folded into that input.
- The mouth opening is held in hundredths; fractional drift of the 0.15 steps is not modelled.
- The ghosts' sine bob while waiting is not modelled. A waiting ghost sits on its home centre.
- `Math.random` draws are rolls passed in. These are the mushroom's tile, direction and 3% turn.
- The player-tile fallback `{x: 10, y: 15}` used when no player tile is known is not modelled. The engine always has a player.
- The JavaScript constructor's empty map and missing Pac-Man are not modelled. The model starts from an all-EMPTY maze and start-state entities.
- Request bodies that are JSON objects or arrays nested in a field, and numbers that are not integers, are not modelled.
- Rankings.ToNumber: numbers are exact integers here. JavaScript's doubles round integers beyond 2^53 (`Number("9007199254740993")` is 9007199254740992), so for such scores the stored maximum can differ from the model's.
- Engine.GameEngine.GameLoop: states bounds on score, lives, level and counter, not the frame's full new state. The full effect of each step is stated by `PlayerStep`, `MoveGhosts`, `CheckCollisions`, `CheckLevelComplete` and `TickFrightened`.
- Engine.GameEngine.PlayFrame: same bounds as `GameLoop`, for the same reason.
- Engine.GameEngine.MoveEntities: same bounds as `GameLoop`, for the same reason.
- Engine.GameEngine.Resolve: same bounds as `GameLoop`, for the same reason.
- Rankings.Normalise: upper-cases ASCII letters only. The full Unicode case mapping of `toUpperCase` is not modelled; trimming uses the full ECMAScript white-space set.
- Rankings.ParseNumber: `Number` on a string is modelled for optionally signed decimal integers and blank text only; any other text is NaN here. Decimals, exponents, hex and `Infinity` are not modelled.
- Rankings.RankingStore.TopTen: entries with equal scores come in no stated order. The database returns them in its natural order, which is not modelled.

=== FILE: api.dfy ===
/** The serverless entry point that serves the ranking under Netlify: it
    connects first, normalises the request path, dispatches on method and
    path, and answers the diagnostic, the top-ten listing and the score
    submission, with 404 for anything else and 500 when the connection,
    the body's parsing, the name's trim or a database operation fails. */
module NetlifyApi {
  import opened Wrappers
  import opened Rankings

  // ---------------------------------------------------------------------
  // Path normalisation.

  /** `pat` occurs in `s` starting at position `j`. */
  predicate OccursAt(s: string, pat: string, j: int)
  {
    0 <= j && j + |pat| <= |s| && s[j..j + |pat|] == pat
  }

  /** The first position at or after `k` where `pat` occurs in `s`. */
  function IndexFrom(s: string, pat: string, k: nat): (r: Option<nat>)
    requires k <= |s|
    ensures r.Some? ==>
              k <= r.value && OccursAt(s, pat, r.value)
              && forall j :: k <= j < r.value ==> !OccursAt(s, pat, j)
    ensures r.None? ==> forall j :: k <= j ==> !OccursAt(s, pat, j)
    decreases |s| - k
  {
    if OccursAt(s, pat, k) then Some(k)
    else if k == |s| then None
    else IndexFrom(s, pat, k + 1)
  }

  /** `s` with the first occurrence of `pat` cut out; `s` itself when `pat`
      does not occur. */
  function RemoveFirst(s: string, pat: string): (r: string)
    ensures (forall j :: !OccursAt(s, pat, j)) ==> r == s
    ensures forall i :: OccursAt(s, pat, i) && (forall j :: 0 <= j < i ==> !OccursAt(s, pat, j))
                ==> r == s[..i] + s[i + |pat|..]
  {
    match IndexFrom(s, pat, 0)
    case None => s
    case Some(i) =>
      s[..i] + s[i + |pat|..]
  }

  const FUNCTION_PREFIX: string := "/.netlify/functions/api"
  const API_PREFIX: string := "/api"

  /** `p` without a leading `/api`. */
  function StripApi(p: string): (r: string)
    ensures |p| >= 4 && p[..4] == API_PREFIX ==> p == API_PREFIX + r
    ensures !(|p| >= 4 && p[..4] == API_PREFIX) ==> r == p
  {
    if |p| >= 4 && p[..4] == API_PREFIX then p[4..] else p
  }

  /** The path the handler routes on: the first occurrence of the function's
      own prefix is cut out, then a leading `/api`. */
  function NormalisePath(path: string): string
  {
    StripApi(RemoveFirst(path, FUNCTION_PREFIX))
  }

  /** A request redirected to the function keeps only what follows the
      function's prefix, less a leading `/api`. */
  lemma {:induction false} RedirectedPath(q: string)
    ensures NormalisePath(FUNCTION_PREFIX + q) == StripApi(q)
  {
    var s := FUNCTION_PREFIX + q;
    assert s[..|FUNCTION_PREFIX|] == FUNCTION_PREFIX;
    assert OccursAt(s, FUNCTION_PREFIX, 0);
    assert s[|FUNCTION_PREFIX|..] == q;
  }

  /** `/api/...` and the bare path reach the same route. */
  lemma {:induction false} ApiPrefixDropped(q: string)
    requires forall j :: !OccursAt(API_PREFIX + q, FUNCTION_PREFIX, j)
    ensures NormalisePath(API_PREFIX + q) == q
  {
    var s := API_PREFIX + q;
    assert s[..4] == API_PREFIX;
    assert s[4..] == q;
  }

  // ---------------------------------------------------------------------
  // Dispatch.

  /** The handler's four outcomes of dispatch. */
  datatype Route = TestRoute | ListRoute | SubmitRoute | NoRoute

  /** Which branch of the handler a request takes. */
  function RouteOf(httpMethod: string, path: string): (r: Route)
    ensures r == TestRoute <==> httpMethod == "GET" && (path == "/test" || path == "/test/")
    ensures r == ListRoute <==> httpMethod == "GET" && (path == "/rankings" || path == "/rankings/")
    ensures r == SubmitRoute <==> httpMethod == "POST" && (path == "/rankings" || path == "/rankings/")
  {
    if httpMethod == "GET" && (path == "/test" || path == "/test/") then TestRoute
    else if httpMethod == "GET" && (path == "/rankings" || path == "/rankings/") then ListRoute
    else if httpMethod == "POST" && (path == "/rankings" || path == "/rankings/") then SubmitRoute
    else NoRoute
  }

  /** The request body as `JSON.parse` leaves it: a failure (text that is
      not JSON, or `null`, whose fields cannot be read) or the fields. */
  datatype Payload = Malformed(reason: string) | Parsed(fields: Submission)

  /** An incoming request. */
  datatype Event = Event(httpMethod: string, path: string, body: Payload)

  const MISSING_FIELDS: string := "Missing fields"
  const NAME_NOT_A_STRING: string := "name.trim is not a function"

  /** The handler refuses a submission whose name is falsy or whose score or
      level is absent; a null score or level is accepted. */
  predicate HandlerRejects(sub: Submission)
  {
    !Truthy(sub.name) || sub.score.Undefined? || sub.level.Undefined?
  }

  /** Every submission the handler refuses the router refuses too, but a
      null score passes the handler, where it is stored as 0. */
  lemma RejectionsCompared()
    ensures forall sub :: HandlerRejects(sub) ==> RouterRejects(sub)
    ensures var sub := Submission(Str("AA"), Null, Num(1));
            !HandlerRejects(sub) && RouterRejects(sub) && ToNumber(sub.score) == Int(0)
  {
  }

  /** The error `getClient` raises. */
  function ClientError(db: Db): string
    requires !Connects(db)
  {
    if db.NoUri? then "Missing MONGODB_URI" else db.reason
  }

  /** The handler. The connection comes first, so without it every request
      fails with 500; otherwise the request is dispatched on its method and
      normalised path, and a failing count, query or update gives 500. Only
      an accepted submission changes the collection. */
  method Handle(store: RankingStore, ev: Event, db: Db, now: string) returns (resp: Response)
    requires store.Valid()
    modifies store
    ensures store.Valid()
    ensures (resp.status != 200 || RouteOf(ev.httpMethod, NormalisePath(ev.path)) != SubmitRoute)
              ==> store.records == old(store.records)
    ensures !Connects(db) ==> resp == Response(500, false, Crash(ClientError(db)))
    ensures Connects(db) ==>
              var path := NormalisePath(ev.path);
              var route := RouteOf(ev.httpMethod, path);
              && (route == NoRoute ==> resp == Response(404, false, NotFound(path)))
              && (route == TestRoute && db.Connected? ==> resp == Response(200, true, Diagnostic))
              && (route == ListRoute && db.Connected? ==>
                    resp.status == 200 && resp.cors && resp.body.Listing?
                    && TopOf(old(store.records), resp.body.records))
              && ((route == TestRoute || route == ListRoute) && db.QueryFails? ==>
                    resp == Response(500, false, Crash(db.error)))
              && (route == SubmitRoute && ev.body.Malformed? ==>
                    resp == Response(500, false, Crash(ev.body.reason)))
              && (route == SubmitRoute && ev.body.Parsed? && HandlerRejects(ev.body.fields) ==>
                    resp == Response(400, false, Failure(MISSING_FIELDS)))
              && (route == SubmitRoute && ev.body.Parsed? && !HandlerRejects(ev.body.fields)
                  && !ev.body.fields.name.Str? ==>
                    resp == Response(500, false, Crash(NAME_NOT_A_STRING)))
              && (route == SubmitRoute && ev.body.Parsed? && !HandlerRejects(ev.body.fields)
                  && ev.body.fields.name.Str? && db.QueryFails? ==>
                    resp == Response(500, false, Crash(db.error)))
              && (route == SubmitRoute && ev.body.Parsed? && !HandlerRejects(ev.body.fields)
                  && ev.body.fields.name.Str? && db.Connected? ==>
                    resp == Response(200, true, Success)
                    && store.records == Upserted(old(store.records), Normalise(ev.body.fields.name.s),
                                                 ToNumber(ev.body.fields.score),
                                                 ToNumber(ev.body.fields.level), now))
  {
    if !Connects(db) {
      return Response(500, false, Crash(ClientError(db)));
    }
    var path := NormalisePath(ev.path);
    var route := RouteOf(ev.httpMethod, path);
    if route == TestRoute || route == ListRoute {
      if db.QueryFails? {
        return Response(500, false, Crash(db.error));
      }
      if route == TestRoute {
        return Response(200, true, Diagnostic);
      }
      var top := store.TopTen();
      return Response(200, true, Listing(top));
    }
    if route == SubmitRoute {
      if ev.body.Malformed? {
        return Response(500, false, Crash(ev.body.reason));
      }
      var sub := ev.body.fields;
      if HandlerRejects(sub) {
        return Response(400, false, Failure(MISSING_FIELDS));
      }
      if !sub.name.Str? {
        return Response(500, false, Crash(NAME_NOT_A_STRING));
      }
      if db.QueryFails? {
        return Response(500, false, Crash(db.error));
      }
      store.Submit(sub.name.s, sub, now);
      return Response(200, true, Success);
    }
    resp := Response(404, false, NotFound(path));
  }
}

=== FILE: constants.dfy ===
/** Game constants: grid and canvas size, cell codes, directions, scores,
    durations and the fixed start and home tiles. */
module Constants {

  const TILE: int := 24
  const COLS: int := 21
  const ROWS: int := 21
  const CANVAS_W: int := COLS * TILE
  const CANVAS_H: int := ROWS * TILE

  // Cell codes of the maze.
  const EMPTY: int := 0
  const WALL: int := 1
  const DOT: int := 2
  const POWER: int := 3
  const GHOST_DOOR: int := 4

  // Scores.
  const SCORE_CHERRY: int := 10
  const SCORE_POWER: int := 50
  const SCORE_GHOST: int := 200
  const LEVEL_BONUS: int := 500

  // Durations, in milliseconds.
  const FRIGHTENED_DURATION: int := 7000
  const SPEED_BOOST_DURATION: int := 5000
  const TOTAL_LEVELS: int := 6

  const MUSHROOM_DURATION: int := 12000
  const MUSHROOM_LIFETIME: int := 8000
  const SCORE_MUSHROOM: int := 100

  const GHOST_DOOR_COL: int := 10
  const GHOST_DOOR_ROW: int := 8
  const GHOST_EXIT_ROW: int := 7

  /** A tile coordinate: column `x`, row `y`. */
  datatype Tile = Tile(x: int, y: int)

  const PACMAN_START: Tile := Tile(10, 15)

  /** Home tiles of the four ghosts, by index. */
  const GHOST_HOME: seq<Tile> := [Tile(9, 9), Tile(10, 9), Tile(11, 9), Tile(10, 10)]

  /** A direction of travel; `NoDir` is the stopped direction. */
  datatype Dir = NoDir | Up | Down | Left | Right

  /** Horizontal component of the unit vector of `d`. */
  function DX(d: Dir): int
  {
    match d
    case Left => -1
    case Right => 1
    case _ => 0
  }

  /** Vertical component of the unit vector of `d` (rows grow downwards). */
  function DY(d: Dir): int
  {
    match d
    case Up => -1
    case Down => 1
    case _ => 0
  }

  /** The direction whose vector is the negation of `d`'s. */
  function Opposite(d: Dir): (r: Dir)
    ensures DX(r) == -DX(d) && DY(r) == -DY(d)
  {
    match d
    case NoDir => NoDir
    case Up => Down
    case Down => Up
    case Left => Right
    case Right => Left
  }

  /** `DX(d)` scaled by a displacement of `step` pixels. */
  function StepX(d: Dir, step: int): (dx: int)
    ensures dx == DX(d) * step
  {
    match d
    case Left => -step
    case Right => step
    case _ => 0
  }

  /** `DY(d)` scaled by a displacement of `step` pixels. */
  function StepY(d: Dir, step: int): (dy: int)
    ensures dy == DY(d) * step
  {
    match d
    case Up => -step
    case Down => step
    case _ => 0
  }

  /** The fixed evaluation order of the four moving directions. */
  const DIRS: seq<Dir> := [Up, Down, Left, Right]

  /** The tile one step from `t` in direction `d`. */
  function Neighbour(t: Tile, d: Dir): Tile
  {
    Tile(t.x + DX(d), t.y + DY(d))
  }

  /** True when `t` lies inside the 21 x 21 grid. */
  predicate InGrid(t: Tile)
  {
    0 <= t.x < COLS && 0 <= t.y < ROWS
  }
}

=== FILE: engine.dfy ===
/** The game engine: level loading and pellet counting, the per-frame update
    of the player and the ghosts, collisions, level completion, the
    frightened mode and the prize title. The timer callbacks of the browser
    are the explicit transition methods `OnBannerTimeout`,
    `OnRespawnTimeout` and `OnLevelAdvanceTimeout`. */
module Engine {
  import opened Constants
  import opened Grids
  import opened Entities
  import opened Player
  import opened Ghosts

  /** Lives at the start of a game. */
  const START_LIVES: int := 3

  /** Longest frame the loop accounts for, in ms. */
  const MAX_FRAME_MS: int := 50

  /** The player at (px, py) touches a ghost at (gx, gy): their centres are
      closer than 0.7 of a tile, that is dx^2 + dy^2 < 16.8^2. */
  predicate Touching(px: int, py: int, gx: int, gy: int): (b: bool)
    ensures b <==> (px - gx) * (px - gx) + (py - gy) * (py - gy) <= 282
    ensures b ==> -17 < px - gx < 17 && -17 < py - gy < 17
    ensures -12 < px - gx < 12 && -12 < py - gy < 12 ==> b
  {
    SquareBounds(px - gx);
    SquareBounds(py - gy);
    25 * ((px - gx) * (px - gx) + (py - gy) * (py - gy)) < 7056
  }

  /** Bounds on the square of a whole-pixel offset. */
  lemma SquareBounds(d: int)
    ensures d * d >= 0
    ensures d >= 17 || d <= -17 ==> d * d >= 289
    ensures -12 < d < 12 ==> d * d <= 121
  {
    if d >= 17 {
      assert d * d >= 17 * d;
    } else if d <= -17 {
      assert d * d >= -17 * d;
    } else if 0 <= d < 12 {
      assert d * d <= 11 * d;
    } else if -12 < d < 0 {
      assert d * d <= -11 * d;
    }
  }

  /** The collision check considers `g`: it is out of the house, not
      already eaten, and touching the player. */
  predicate Catches(px: int, py: int, g: GhostView)
  {
    g.exited && !g.eaten && Touching(px, py, g.x, g.y)
  }

  /** How many of `gs` a player at (px, py) eats: the caught frightened ones. */
  function EatenCount(gs: seq<Ghost>, px: int, py: int): (n: nat)
    reads gs
    ensures n <= |gs|
  {
    if gs == [] then 0
    else
      var g := gs[|gs| - 1].View();
      EatenCount(gs[..|gs| - 1], px, py) + (if Catches(px, py, g) && g.frightened then 1 else 0)
  }

  /** How many of `gs` catch a player at (px, py): the caught ones that are
      not frightened. */
  function HitCount(gs: seq<Ghost>, px: int, py: int): (n: nat)
    reads gs
    ensures n <= |gs|
  {
    if gs == [] then 0
    else
      var g := gs[|gs| - 1].View();
      HitCount(gs[..|gs| - 1], px, py) + (if Catches(px, py, g) && !g.frightened then 1 else 0)
  }

  /** How many of `gs` a player at (px, py) catches, frightened or not. */
  function CaughtCount(gs: seq<Ghost>, px: int, py: int): nat
    reads gs
  {
    if gs == [] then 0
    else CaughtCount(gs[..|gs| - 1], px, py) + (if Catches(px, py, gs[|gs| - 1].View()) then 1 else 0)
  }

  /** Every caught ghost is either eaten or takes a life, never both: the
      ghosts eaten and the lives lost in one collision check add up to the
      ghosts caught. */
  lemma {:induction false} CaughtSplit(gs: seq<Ghost>, px: int, py: int)
    ensures EatenCount(gs, px, py) + HitCount(gs, px, py) == CaughtCount(gs, px, py)
  {
    if gs != [] {
      CaughtSplit(gs[..|gs| - 1], px, py);
    }
  }

  /** From `a` to `b` a ghost kept its position, direction and house
      state. */
  predicate KeptPlace(a: GhostView, b: GhostView)
  {
    && b.x == a.x && b.y == a.y && b.dir == a.dir
    && b.exited == a.exited && b.exiting == a.exiting && b.exitTimer == a.exitTimer
  }

  /** From `a` to `b` a ghost entered frightened mode: frightened unless
      already eaten, and turned around if also out of the house. */
  predicate Scared(a: GhostView, b: GhostView)
  {
    && b.eaten == a.eaten
    && b.frightened == (a.frightened || !a.eaten)
    && b.dir == (if !a.eaten && a.exited then Opposite(a.dir) else a.dir)
    && b.x == a.x && b.y == a.y && b.exited == a.exited
    && b.exiting == a.exiting && b.exitTimer == a.exitTimer
  }

  /** From `a` to `b` a ghost went through the collision check with the
      player at (px, py): eaten if it was caught while frightened, otherwise
      as it was. */
  predicate Collided(a: GhostView, b: GhostView, px: int, py: int)
  {
    && KeptPlace(a, b)
    && (Catches(px, py, a) && a.frightened ==> b.eaten && !b.frightened)
    && (!(Catches(px, py, a) && a.frightened) ==> b.eaten == a.eaten && b.frightened == a.frightened)
  }

  /** From `a` to `b` a ghost left frightened mode: no longer frightened,
      otherwise as it was. */
  predicate Calmed(a: GhostView, b: GhostView)
  {
    !b.frightened && KeptPlace(a, b) && b.eaten == a.eaten
  }

  /** The title shown on the prize screen. */
  datatype Title = Warrior | Master | Champion | Legend

  /** Position of a title in the order Warrior < Master < Champion < Legend. */
  function TitleRank(t: Title): nat
  {
    match t
    case Warrior => 0
    case Master => 1
    case Champion => 2
    case Legend => 3
  }

  /** The prize title for a final score: Legend from 15000, Champion from
      10000, Master from 5000, Warrior below. */
  function PrizeTitle(score: int): (t: Title)
    ensures t == Legend <==> score >= 15000
    ensures t == Champion <==> 10000 <= score < 15000
    ensures t == Master <==> 5000 <= score < 10000
    ensures t == Warrior <==> score < 5000
  {
    if score >= 15000 then Legend
    else if score >= 10000 then Champion
    else if score >= 5000 then Master
    else Warrior
  }

  /** A higher score never earns a lower title. */
  lemma PrizeTitleMonotonic(s1: int, s2: int)
    requires s1 <= s2
    ensures TitleRank(PrizeTitle(s1)) <= TitleRank(PrizeTitle(s2))
  {
  }

  /** A fresh maze holding a cell-by-cell copy of template `t`; the
      template itself is never written. */
  method CopyTemplate(t: Cells) returns (m: array2<int>)
    requires WellFormed(t)
    ensures fresh(m) && Shaped(m) && Snapshot(m) == t
  {
    m := new int[ROWS, COLS];
    for r := 0 to ROWS
      invariant forall i, j :: 0 <= i < r && 0 <= j < COLS ==> m[i, j] == t[i][j]
    {
      for c := 0 to COLS
        invariant forall i, j :: 0 <= i < r && 0 <= j < COLS ==> m[i, j] == t[i][j]
        invariant forall j :: 0 <= j < c ==> m[r, j] == t[r][j]
      {
        m[r, c] := t[r][c];
      }
    }
    SnapshotSame(m, t);
  }

  /** Ghosts 0 to 3, fresh and in their starting places. */
  method NewGhosts() returns (gs: seq<Ghost>)
    ensures |gs| == 4
    ensures forall i :: 0 <= i < 4 ==> fresh(gs[i]) && gs[i].index == i && gs[i].AtStart()
  {
    gs := [];
    for i := 0 to 4
      invariant |gs| == i
      invariant forall j :: 0 <= j < i ==> fresh(gs[j]) && gs[j].index == j && gs[j].AtStart()
    {
      var g := new Ghost(i);
      gs := gs + [g];
    }
  }

  class GameEngine {
    /** The six level templates, never written. */
    const levels: seq<Cells>
    var score: int
    var lives: int
    var level: int
    var maze: array2<int>
    var dotsRemaining: int
    var gameRunning: bool
    var gamePaused: bool
    var frightenedTimer: int
    var pacman: PacMan
    var ghosts: seq<Ghost>
    /** The template the current maze was loaded from. */
    ghost var loaded: Cells
    /** The value of the maze, cell by cell. */
    ghost var cells: Cells

    /** The engine's invariant. The pellet counter equals the DOTs still on
        the maze plus every POWER cell the level was loaded with: eating a
        POWER cell never lowers the counter. */
    ghost predicate Valid()
      reads this, maze, pacman
    {
      && |levels| == TOTAL_LEVELS && (forall l :: 0 <= l < |levels| ==> WellFormed(levels[l]))
      && 0 <= level < TOTAL_LEVELS
      && Shaped(maze) && WellFormed(loaded) && WellFormed(cells)
      && (forall r, c :: 0 <= r < ROWS && 0 <= c < COLS ==> maze[r, c] == cells[r][c])
      && |ghosts| == 4 && (forall i :: 0 <= i < 4 ==> ghosts[i].index == i)
      && dotsRemaining == Count(cells, DOT) + Count(loaded, POWER)
      && frightenedTimer >= 0
      && pacman.Valid()
    }

    /** A fresh engine, not yet running. The maze starts all EMPTY and the
        player and ghosts start in place until the first level loads. */
    constructor (templates: seq<Cells>)
      requires |templates| == TOTAL_LEVELS
      requires forall l :: 0 <= l < |templates| ==> WellFormed(templates[l])
      ensures levels == templates
      ensures score == 0 && lives == START_LIVES && level == 0 && dotsRemaining == 0
      ensures !gameRunning && !gamePaused && frightenedTimer == 0
      ensures Valid()
    {
      levels := templates;
      score := 0;
      lives := START_LIVES;
      level := 0;
      var m := new int[ROWS, COLS]((r, c) => EMPTY);
      maze := m;
      dotsRemaining := 0;
      gameRunning := false;
      gamePaused := false;
      frightenedTimer := 0;
      pacman := new PacMan();
      var gs := NewGhosts();
      ghosts := gs;
      ghost var blank := Snapshot(m);
      loaded := blank;
      cells := blank;
      CountAbsent(blank, DOT);
      CountAbsent(blank, POWER);
    }

    /** New player and ghosts in their starting places. */
    method ResetPositions()
      modifies this`pacman, this`ghosts
      ensures fresh(pacman) && pacman.AtStart() && pacman.Valid()
      ensures |ghosts| == 4
      ensures forall i :: 0 <= i < 4 ==> fresh(ghosts[i]) && ghosts[i].index == i && ghosts[i].AtStart()
    {
      pacman := new PacMan();
      ghosts := NewGhosts();
    }

    /** Loads level `lvl`: the maze becomes a fresh cell-by-cell copy of the
        template, the pellet counter counts its DOT and POWER cells, the
        entities go back to their starting places, and the game waits,
        paused, for the level banner. */
    method LoadLevel(lvl: int)
      requires Valid() && 0 <= lvl < TOTAL_LEVELS
      modifies this
      ensures Valid()
      ensures gamePaused && !gameRunning
      ensures fresh(maze) && Snapshot(maze) == levels[lvl] && loaded == levels[lvl]
      ensures dotsRemaining == Pellets(levels[lvl])
      ensures fresh(pacman) && pacman.AtStart()
      ensures forall i :: 0 <= i < 4 ==> fresh(ghosts[i]) && ghosts[i].AtStart()
      ensures score == old(score) && lives == old(lives) && level == old(level)
      ensures frightenedTimer == old(frightenedTimer)
    {
      // The flags are independent of the maze and the entities, so setting
      // them last is the same as setting them first.
      ResetLevel(lvl);
      gamePaused := true;
      gameRunning := false;
    }

    /** Level `lvl`'s maze and pellet count, with the entities in their
        starting places. */
    method ResetLevel(lvl: int)
      requires Valid() && 0 <= lvl < TOTAL_LEVELS
      modifies this`maze, this`dotsRemaining, this`loaded, this`cells, this`pacman, this`ghosts
      ensures Valid()
      ensures fresh(maze) && Snapshot(maze) == levels[lvl] && loaded == levels[lvl]
      ensures dotsRemaining == Pellets(levels[lvl])
      ensures fresh(pacman) && pacman.AtStart()
      ensures forall i :: 0 <= i < 4 ==> fresh(ghosts[i]) && ghosts[i].AtStart()
    {
      ResetPositions();
      InstallMaze(levels[lvl]);
    }

    /** The maze becomes a fresh copy of template `t` and the pellet counter
        counts its DOT and POWER cells. */
    method InstallMaze(t: Cells)
      requires WellFormed(t)
      modifies this`maze, this`dotsRemaining, this`loaded, this`cells
      ensures fresh(maze) && Shaped(maze) && Snapshot(maze) == t && loaded == t && cells == t
      ensures forall r, c :: 0 <= r < ROWS && 0 <= c < COLS ==> maze[r, c] == cells[r][c]
      ensures dotsRemaining == Pellets(t) == Count(cells, DOT) + Count(loaded, POWER)
    {
      maze := CopyTemplate(t);
      CountPellets();
      loaded := t;
      cells := t;
      PelletsSplit(t);
    }

    /** The pellet counter becomes the number of DOT and POWER cells on the
        maze, counted row by row. */
    method CountPellets()
      requires Shaped(maze)
      modifies this`dotsRemaining
      ensures dotsRemaining == Pellets(Snapshot(maze))
    {
      ghost var t := Snapshot(maze);
      dotsRemaining := 0;
      for r := 0 to ROWS
        invariant dotsRemaining == Pellets(t[..r])
      {
        for c := 0 to COLS
          invariant dotsRemaining == Pellets(t[..r]) + RowPellets(t[r][..c])
        {
          if maze[r, c] == DOT || maze[r, c] == POWER {
            dotsRemaining := dotsRemaining + 1;
          }
          assert t[r][..c + 1][..c] == t[r][..c];
        }
        assert t[..r + 1][..r] == t[..r];
        assert t[r][..COLS] == t[r];
      }
      assert t[..ROWS] == t;
    }

    /** A new game: score 0, three lives, the first level. */
    method StartGame()
      requires Valid()
      modifies this
      ensures Valid()
      ensures score == 0 && lives == START_LIVES && level == 0
      ensures Snapshot(maze) == levels[0] && dotsRemaining == Pellets(levels[0])
      ensures gamePaused && !gameRunning
    {
      score := 0;
      lives := START_LIVES;
      level := 0;
      LoadLevel(level);
    }

    /** The level banner has gone: the game runs, unpaused, with no
        frightened time left. */
    method OnBannerTimeout()
      modifies this`gameRunning, this`gamePaused, this`frightenedTimer
      ensures gameRunning && !gamePaused && frightenedTimer == 0
    {
      gameRunning := true;
      gamePaused := false;
      frightenedTimer := 0;
    }

    /** The pause after losing a life is over: new player and ghosts, and
        the game resumes. */
    method OnRespawnTimeout()
      requires Valid()
      modifies this`pacman, this`ghosts, this`gamePaused
      ensures Valid() && !gamePaused
      ensures fresh(pacman) && pacman.AtStart()
      ensures forall i :: 0 <= i < 4 ==> fresh(ghosts[i]) && ghosts[i].AtStart()
    {
      ResetPositions();
      gamePaused := false;
    }

    /** The pause after completing a level is over: the (already advanced)
        level loads. */
    method OnLevelAdvanceTimeout()
      requires Valid()
      modifies this
      ensures Valid()
      ensures Snapshot(maze) == levels[level] && dotsRemaining == Pellets(levels[level])
      ensures level == old(level) && score == old(score) && lives == old(lives)
    {
      LoadLevel(level);
    }

    /** Frightened mode: 7 s of it, 5 s of speed boost for the player, and
        every ghost not already eaten turns frightened; those already out of
        the house also turn around. */
    method ActivateFrightened()
      requires Valid()
      modifies this`frightenedTimer, pacman`speedBoostTimer, ghosts
      ensures Valid()
      ensures frightenedTimer == FRIGHTENED_DURATION
      ensures pacman.speedBoostTimer == SPEED_BOOST_DURATION
      ensures forall i :: 0 <= i < 4 ==> Scared(old(ghosts[i].View()), ghosts[i].View())
    {
      frightenedTimer := FRIGHTENED_DURATION;
      pacman.speedBoostTimer := SPEED_BOOST_DURATION;
      for k := 0 to 4
        modifies ghosts
        invariant forall i :: 0 <= i < k ==> Scared(old(ghosts[i].View()), ghosts[i].View())
        invariant forall i :: k <= i < 4 ==> unchanged(ghosts[i])
      {
        var g := ghosts[k];
        if !g.eaten {
          g.frightened := true;
          if g.exited {
            g.dir := Opposite(g.dir);
          }
        }
      }
    }

    /** The collision check against ghost `k` alone. */
    method CollideWith(k: int, px: int, py: int)
      requires 0 <= k < |ghosts|
      modifies this`score, this`lives, this`gameRunning, this`gamePaused, ghosts[k]
      ensures var g := ghosts[k];
              var eats := old(Catches(px, py, g.View()) && g.frightened);
              var hit := old(Catches(px, py, g.View()) && !g.frightened);
              && score == old(score) + (if eats then SCORE_GHOST else 0)
              && lives == old(lives) - (if hit then 1 else 0)
              && gameRunning == (old(gameRunning) && !(hit && lives <= 0))
              && gamePaused == (old(gamePaused) || (hit && lives > 0))
              && Collided(old(g.View()), g.View(), px, py)
    {
      var g := ghosts[k];
      if !g.exited || g.eaten {
        return;
      }
      var dx := px - g.x;
      var dy := py - g.y;
      if 25 * (dx * dx + dy * dy) < 7056 {
        if g.frightened {
          g.eaten := true;
          g.frightened := false;
          score := score + SCORE_GHOST;
        } else {
          lives := lives - 1;
          if lives <= 0 {
            GameOver();
          } else {
            gamePaused := true;
          }
        }
      }
    }

    /** Collision check against every ghost in turn. A caught frightened
        ghost is eaten and scores 200; a caught ghost that is not frightened
        costs a life, and the game ends as soon as no life is left or pauses
        otherwise. The scan goes on after a lost life, so one frame can cost
        more than one life. */
    method CheckCollisions()
      requires Valid()
      modifies this`score, this`lives, this`gameRunning, this`gamePaused, ghosts
      ensures Valid()
      ensures var eatenN := old(EatenCount(ghosts, pacman.x, pacman.y));
              var hits := old(HitCount(ghosts, pacman.x, pacman.y));
              && score == old(score) + SCORE_GHOST * eatenN
              && lives == old(lives) - hits
              && gameRunning == (old(gameRunning) && !(hits > 0 && lives <= 0))
              && gamePaused == (old(gamePaused) || (hits > 0 && old(lives) > 1))
      ensures forall i :: 0 <= i < 4 ==> Collided(old(ghosts[i].View()), ghosts[i].View(), pacman.x, pacman.y)
      ensures score >= old(score) && old(lives) - 4 <= lives <= old(lives)
    {
      var px, py := pacman.x, pacman.y;
      var gs := ghosts;
      for k := 0 to 4
        invariant px == pacman.x && py == pacman.y && gs == ghosts
        invariant score == old(score) + SCORE_GHOST * old(EatenCount(gs[..k], px, py))
        invariant lives == old(lives) - old(HitCount(gs[..k], px, py))
        invariant gameRunning == (old(gameRunning) && !(old(HitCount(gs[..k], px, py)) > 0 && lives <= 0))
        invariant gamePaused == (old(gamePaused) || (old(HitCount(gs[..k], px, py)) > 0 && old(lives) > 1))
        invariant forall i :: 0 <= i < k ==> Collided(old(gs[i].View()), gs[i].View(), px, py)
        invariant forall i :: k <= i < 4 ==> unchanged(gs[i])
      {
        assert gs[..k + 1][..k] == gs[..k];
        CollideWith(k, px, py);
      }
      assert gs[..4] == gs;
    }

    /** The game ends. */
    method GameOver()
      modifies this`gameRunning
      ensures !gameRunning
    {
      gameRunning := false;
    }

    /** When the pellet counter has run out the level is complete: the game
        stops, scores 500 times the level number, and moves to the next
        level unless this was the last one. */
    method CheckLevelComplete()
      requires Valid()
      modifies this`gameRunning, this`score, this`level
      ensures Valid()
      ensures old(dotsRemaining) > 0 ==>
                gameRunning == old(gameRunning) && score == old(score) && level == old(level)
      ensures old(dotsRemaining) <= 0 ==>
                && !gameRunning
                && score == old(score) + LEVEL_BONUS * (old(level) + 1)
                && level == (if old(level) + 1 >= TOTAL_LEVELS then old(level) else old(level) + 1)
      ensures score >= old(score) && (level == old(level) || level == old(level) + 1)
    {
      if dotsRemaining <= 0 {
        gameRunning := false;
        score := score + LEVEL_BONUS * (level + 1);
        if level + 1 >= TOTAL_LEVELS {
          // The prize screen follows; nothing else changes.
        } else {
          level := level + 1;
        }
      }
    }

    /** Every ghost stops being frightened. */
    method CalmGhosts()
      requires Valid()
      modifies ghosts
      ensures forall i :: 0 <= i < 4 ==> Calmed(old(ghosts[i].View()), ghosts[i].View())
    {
      for k := 0 to 4
        invariant forall i :: 0 <= i < k ==> Calmed(old(ghosts[i].View()), ghosts[i].View())
        invariant forall i :: k <= i < 4 ==> unchanged(ghosts[i])
      {
        ghosts[k].frightened := false;
      }
    }

    /** The frightened timer runs down by `dtMs`; when it runs out it stops
        at exactly 0 and every ghost stops being frightened. */
    method TickFrightened(dtMs: int)
      requires Valid()
      modifies this`frightenedTimer, ghosts
      ensures Valid()
      ensures frightenedTimer == Countdown(old(frightenedTimer), dtMs)
      ensures old(frightenedTimer) > 0 && frightenedTimer == 0 ==>
                forall i :: 0 <= i < 4 ==> Calmed(old(ghosts[i].View()), ghosts[i].View())
      ensures !(old(frightenedTimer) > 0 && frightenedTimer == 0) ==>
                forall i :: 0 <= i < 4 ==> unchanged(ghosts[i])
    {
      if frightenedTimer > 0 {
        frightenedTimer := frightenedTimer - dtMs;
        if frightenedTimer <= 0 {
          frightenedTimer := 0;
          CalmGhosts();
        }
      }
    }

    /** The player's half of a frame: move and pick up, add the score,
        lower the pellet counter by the DOTs eaten, start frightened mode on
        a POWER pellet, and run the speed boost down. */
    method PlayerStep(dtMs: int, strides: PacStrides) returns (result: MoveResult)
      requires Valid()
      modifies this`score, this`dotsRemaining, this`frightenedTimer, this`cells, maze, pacman, ghosts
      ensures Valid()
      ensures score == old(score) + result.scoreDelta && result.scoreDelta >= 0
      ensures dotsRemaining == old(dotsRemaining) - result.dotsEaten && 0 <= result.dotsEaten <= 1
      ensures result.powerEaten ==>
                && frightenedTimer == FRIGHTENED_DURATION
                && pacman.speedBoostTimer == Countdown(SPEED_BOOST_DURATION, dtMs)
                && forall i :: 0 <= i < 4 ==> Scared(old(ghosts[i].View()), ghosts[i].View())
      ensures !result.powerEaten ==>
                && frightenedTimer == old(frightenedTimer)
                && pacman.speedBoostTimer == Countdown(old(pacman.speedBoostTimer), dtMs)
                && forall i :: 0 <= i < 4 ==> unchanged(ghosts[i])
      ensures var step := old(Stride(strides, pacman.mushroomPowerTimer, pacman.speedBoostTimer));
              Moved(old(pacman.View()), pacman.View(), result, step,
                    old(DecisionPoint(pacman.x, pacman.y, pacman.dir, pacman.nextDir, step, maze)),
                    old(Decide(pacman.GetTile(), pacman.dir, pacman.nextDir, maze)),
                    old(pacman.mushroomPower), old(pacman.speedBoostTimer), old(cells), cells)
      ensures pacman.mushroomPowerTimer == old(pacman.mushroomPowerTimer)
      ensures pacman.mushroomPower == old(pacman.mushroomPower)
    {
      result := MoveAndEat(strides);
      if result.powerEaten {
        ActivateFrightened();
      }
      pacman.UpdateBoost(dtMs);
    }

    /** The player moves and picks up: the score grows by what was picked
        up and the pellet counter drops by the DOTs eaten; the player's
        timers and the ghosts are untouched. */
    method MoveAndEat(strides: PacStrides) returns (result: MoveResult)
      requires Valid()
      modifies this`score, this`dotsRemaining, this`cells, maze, pacman
      ensures Valid()
      ensures score == old(score) + result.scoreDelta && result.scoreDelta >= 0
      ensures dotsRemaining == old(dotsRemaining) - result.dotsEaten && 0 <= result.dotsEaten <= 1
      ensures var step := old(Stride(strides, pacman.mushroomPowerTimer, pacman.speedBoostTimer));
              Moved(old(pacman.View()), pacman.View(), result, step,
                    old(DecisionPoint(pacman.x, pacman.y, pacman.dir, pacman.nextDir, step, maze)),
                    old(Decide(pacman.GetTile(), pacman.dir, pacman.nextDir, maze)),
                    old(pacman.mushroomPower), old(pacman.speedBoostTimer), old(cells), cells)
      ensures pacman.speedBoostTimer == old(pacman.speedBoostTimer)
      ensures pacman.mushroomPowerTimer == old(pacman.mushroomPowerTimer)
      ensures pacman.mushroomPower == old(pacman.mushroomPower)
    {
      SnapshotSame(maze, cells);
      result := pacman.Move(strides, maze);
      cells := Snapshot(maze);
      score := score + result.scoreDelta;
      dotsRemaining := dotsRemaining - result.dotsEaten;
    }

    /** Every ghost takes its frame towards the player's tile `pac`, in
        index order; the ghosts only read the maze. */
    method MoveGhosts(dtMs: int, strides: GhostStrides, pac: Tile)
      requires Valid()
      modifies ghosts
      ensures Valid()
      ensures forall i :: 0 <= i < 4 ==>
                Stepped(i, old(ghosts[i].View()), ghosts[i].View(), dtMs, strides, pac, maze)
    {
      for k := 0 to 4
        invariant forall i :: 0 <= i < k ==>
                    Stepped(i, old(ghosts[i].View()), ghosts[i].View(), dtMs, strides, pac, maze)
        invariant forall i :: k <= i < 4 ==> unchanged(ghosts[i])
      {
        ghosts[k].Update(dtMs, strides, pac, maze);
      }
    }

    /** One frame. A stopped game does nothing, and a paused one only
        waits; otherwise the frame time is capped at 50 ms and the frame is
        played. */
    method GameLoop(rawDtMs: int, pacStrides: PacStrides, ghostStrides: GhostStrides)
      requires Valid()
      modifies this, maze, pacman, ghosts
      ensures Valid()
      ensures !old(gameRunning) || old(gamePaused) ==>
                unchanged(this) && unchanged(maze) && unchanged(pacman) && forall i :: 0 <= i < 4 ==> unchanged(ghosts[i])
      ensures maze == old(maze) && pacman == old(pacman) && ghosts == old(ghosts) && loaded == old(loaded)
      ensures score >= old(score)
      ensures old(lives) - 4 <= lives <= old(lives)
      ensures level == old(level) || level == old(level) + 1
      ensures old(dotsRemaining) - 1 <= dotsRemaining <= old(dotsRemaining)
    {
      if !gameRunning {
        return;
      }
      var dt := if rawDtMs < MAX_FRAME_MS then rawDtMs else MAX_FRAME_MS;
      if gamePaused {
        return;
      }
      PlayFrame(dt, pacStrides, ghostStrides);
    }

    /** A running frame of `dtMs`: the player moves, every ghost moves
        towards the player's tile, collisions and level completion are
        checked, and the frightened timer runs down. The displacement of
        each entity this frame is a parameter. */
    method PlayFrame(dtMs: int, pacStrides: PacStrides, ghostStrides: GhostStrides)
      requires Valid()
      modifies this`score, this`lives, this`level, this`dotsRemaining, this`gameRunning,
               this`gamePaused, this`frightenedTimer, this`cells, maze, pacman, ghosts
      ensures Valid()
      ensures score >= old(score)
      ensures old(lives) - 4 <= lives <= old(lives)
      ensures level == old(level) || level == old(level) + 1
      ensures old(dotsRemaining) - 1 <= dotsRemaining <= old(dotsRemaining)
    {
      MoveEntities(dtMs, pacStrides, ghostStrides);
      Resolve(dtMs);
    }

    /** The movement half of a frame: the player, then every ghost towards
        the player's new tile. */
    method MoveEntities(dtMs: int, pacStrides: PacStrides, ghostStrides: GhostStrides)
      requires Valid()
      modifies this`score, this`dotsRemaining, this`frightenedTimer, this`cells, maze, pacman, ghosts
      ensures Valid()
      ensures score >= old(score) && old(dotsRemaining) - 1 <= dotsRemaining <= old(dotsRemaining)
    {
      var result := PlayerStep(dtMs, pacStrides);
      MoveGhosts(dtMs, ghostStrides, pacman.GetTile());
    }

    /** The rules half of a frame: collisions, level completion and the
        frightened timer. */
    method Resolve(dtMs: int)
      requires Valid()
      modifies this`score, this`lives, this`level, this`gameRunning, this`gamePaused,
               this`frightenedTimer, ghosts
      ensures Valid()
      ensures score >= old(score)
      ensures old(lives) - 4 <= lives <= old(lives)
      ensures level == old(level) || level == old(level) + 1
    {
      CheckCollisions();
      CheckLevelComplete();
      TickFrightened(dtMs);
    }

    /** A level loaded from a template with a POWER cell never completes:
        whatever the player eats, the pellet counter stays positive. */
    lemma PowerBlocksCompletion(r: nat, c: nat)
      requires Valid()
      requires r < ROWS && c < COLS && loaded[r][c] == POWER
      ensures dotsRemaining > 0
    {
      CountPositive(loaded, r, c, POWER);
    }

    /** The counter reaches zero exactly when no DOT is left on the maze and
        the level was loaded without any POWER cell. */
    lemma CounterMeaning()
      requires Valid()
      ensures dotsRemaining <= 0 <==>
                (forall r, c :: 0 <= r < ROWS && 0 <= c < COLS ==> maze[r, c] != DOT && loaded[r][c] != POWER)
    {
      var snap := cells;
      if forall r, c :: 0 <= r < ROWS && 0 <= c < COLS ==> maze[r, c] != DOT && loaded[r][c] != POWER {
        CountAbsent(snap, DOT);
        CountAbsent(loaded, POWER);
      } else {
        var r, c :| 0 <= r < ROWS && 0 <= c < COLS && !(maze[r, c] != DOT && loaded[r][c] != POWER);
        if maze[r, c] == DOT {
          CountPositive(snap, r, c, DOT);
        } else {
          CountPositive(loaded, r, c, POWER);
        }
      }
    }
  }
}

=== FILE: entity.dfy ===
/** Moving-entity arithmetic shared by the player, the ghosts and the
    mushroom: pixel position to tile, the tile-centre test, snapping to the
    centre and the horizontal tunnel wrap. Positions are whole pixels. */
module Entities {
  import opened Constants

  /** The tile index of pixel coordinate `p` (floor division by TILE). */
  function TileOf(p: int): (t: int)
    ensures t * TILE <= p < t * TILE + TILE
  {
    p / TILE
  }

  /** Floor division has one answer: a pixel inside tile `t` lies in `t`. */
  lemma TileOfUnique(p: int, t: int)
    requires t * TILE <= p < t * TILE + TILE
    ensures TileOf(p) == t
  {
  }

  /** The pixel coordinate of the centre of tile `t`. */
  function Centre(t: int): (c: int)
    ensures TileOf(c) == t
    ensures c == t * TILE + 12
  {
    TileOfUnique(t * TILE + TILE / 2, t);
    t * TILE + TILE / 2
  }

  /** The only tile centre a coordinate can be within 2 pixels of is the
      centre of its own tile. */
  lemma NearOnlyOwnCentre(p: int)
    ensures forall t :: -2 < p - Centre(t) < 2 ==> TileOf(p) == t
  {
    forall t | -2 < p - Centre(t) < 2
      ensures TileOf(p) == t
    {
      TileOfUnique(p, t);
    }
  }

  /** Pixel coordinate `p` lies within 2 pixels of its own tile's centre. */
  predicate Near(p: int): (b: bool)
    ensures b <==> exists t :: -2 < p - Centre(t) < 2
  {
    NearOnlyOwnCentre(p);
    -2 < p - Centre(TileOf(p)) < 2
  }

  /** Being within 2 pixels of SOME tile centre is the same as being within
      2 pixels of the centre of one's own tile. */
  lemma NearAnyCentre(p: int, t: int)
    ensures -2 < p - Centre(t) < 2 ==> Near(p) && TileOf(p) == t
  {
    if -2 < p - Centre(t) < 2 {
      TileOfUnique(p, t);
    }
  }

  /** The entity is at a tile centre: within 2 pixels on both axes. */
  predicate AtCentre(x: int, y: int): (b: bool)
    ensures b <==> (exists tx :: -2 < x - Centre(tx) < 2) && (exists ty :: -2 < y - Centre(ty) < 2)
  {
    Near(x) && Near(y)
  }

  /** `p` moved to the centre of its own tile. */
  function Snapped(p: int): (q: int)
    ensures TileOf(q) == TileOf(p)
    ensures Near(q) && q - Centre(TileOf(q)) == 0
    ensures -11 <= q - p <= 12
  {
    Centre(TileOf(p))
  }

  /** Snapping twice is snapping once. */
  lemma {:induction false} SnapIdempotent(p: int)
    ensures Snapped(Snapped(p)) == Snapped(p)
  {
    assert TileOf(Snapped(p)) == TileOf(p);
  }

  /** Left edge, right edge and the half-tile margin of the tunnel wrap. */
  const WRAP_LOW: int := -(TILE / 2)
  const WRAP_HIGH: int := CANVAS_W + TILE / 2

  /** The horizontal tunnel wrap: past the left margin the entity reappears
      at the right margin, and past the right margin at the left one. */
  function Wrapped(x: int): (w: int)
    ensures WRAP_LOW <= w <= WRAP_HIGH
    ensures WRAP_LOW <= x <= WRAP_HIGH ==> w == x
    ensures x < WRAP_LOW ==> w == WRAP_HIGH
    ensures x > WRAP_HIGH ==> w == WRAP_LOW
  {
    var x1 := if x < WRAP_LOW then WRAP_HIGH else x;
    if x1 > WRAP_HIGH then WRAP_LOW else x1
  }

  /** Wrapping an already wrapped position leaves it where it is: there is
      never a double wrap. */
  lemma WrapIdempotent(x: int)
    ensures Wrapped(Wrapped(x)) == Wrapped(x)
  {
  }

  /** A bare moving entity: a pixel position and a direction of travel. */
  class Entity {
    var x: int
    var y: int
    var dir: Dir

    /** Places the entity at the centre of tile (tileX, tileY), stopped. */
    constructor (tileX: int, tileY: int)
      ensures x == tileX * TILE + 12 && y == tileY * TILE + 12 && dir == NoDir
      ensures GetTile() == Tile(tileX, tileY) && IsAtTileCenter()
    {
      x := Centre(tileX);
      y := Centre(tileY);
      dir := NoDir;
    }

    /** The tile the entity is on. */
    function GetTile(): (t: Tile)
      reads this
      ensures t.x * TILE <= x < t.x * TILE + TILE
      ensures t.y * TILE <= y < t.y * TILE + TILE
    {
      Tile(TileOf(x), TileOf(y))
    }

    /** Within 2 pixels of the tile centre on both axes. */
    predicate IsAtTileCenter(): (b: bool)
      reads this
      ensures b <==> -2 < x - Centre(TileOf(x)) < 2 && -2 < y - Centre(TileOf(y)) < 2
    {
      AtCentre(x, y)
    }

    /** Moves to the exact centre of the current tile. */
    method SnapToCenter()
      modifies this
      ensures x == Snapped(old(x)) && y == Snapped(old(y)) && dir == old(dir)
      ensures GetTile() == old(GetTile()) && IsAtTileCenter()
    {
      x := Centre(TileOf(x));
      y := Centre(TileOf(y));
    }

    /** Teleports through the side tunnel when past a canvas edge's margin. */
    method TunnelWrap()
      modifies this
      ensures x == Wrapped(old(x)) && y == old(y) && dir == old(dir)
    {
      if x < WRAP_LOW {
        x := WRAP_HIGH;
      }
      if x > WRAP_HIGH {
        x := WRAP_LOW;
      }
    }
  }
}

=== FILE: ghost.dfy ===
/** The ghosts: door-aware walkability, the greedy direction choice with
    its dead-end fallback, the frightened flee target, and the four-phase
    state machine (waiting in the house, walking out of the door, roaming
    the maze, returning home after being eaten). */
module Ghosts {
  import opened Constants
  import opened Grids
  import opened Entities
  import opened Wrappers

  /** The four ghost identities. */
  type GhostIndex = i: int | 0 <= i < 4

  /** Staggered delays before each ghost first leaves the house, in ms. */
  const EXIT_TIMERS: seq<int> := [0, 4000, 8000, 12000]

  /** Delay before an eaten ghost that reached home leaves again, in ms. */
  const REEXIT_DELAY: int := 3000

  /** Pixel row of the centre of the exit row, above the door. */
  const EXIT_Y: int := GHOST_EXIT_ROW * TILE + TILE / 2

  /** Pixel column of the centre of the door column. */
  const DOOR_X: int := GHOST_DOOR_COL * TILE + TILE / 2

  /** This frame's displacement in pixels for each kind of motion: walking
      out of the door (x1.5), homing when eaten (x3), the sideways assist
      while homing (half of that), roaming, and roaming while frightened
      (x0.6). */
  datatype GhostStrides = GhostStrides(exit: nat, homing: nat, assist: nat, roam: nat, frightened: nat)

  /** The four phases; the flags `exited`, `exiting` and `eaten` select one. */
  datatype Phase = Waiting | Exiting | Returning | Roaming

  /** The phase `update` runs, in its priority order. */
  function PhaseOf(exited: bool, exiting: bool, eaten: bool): (p: Phase)
    ensures p == Waiting <==> !exited && !exiting
    ensures p == Exiting <==> exiting
    ensures p == Returning <==> exited && !exiting && eaten
    ensures p == Roaming <==> exited && !exiting && !eaten
  {
    if !exited && !exiting then Waiting
    else if exiting then Exiting
    else if eaten then Returning
    else Roaming
  }

  /** A ghost may enter tile (tx, ty): a column outside the grid is the
      tunnel, a row outside the grid never is, walls never are, and the door
      only for a ghost that has not yet left the house. */
  function IsWalkable(tx: int, ty: int, grid: array2<int>, exited: bool): (b: bool)
    reads grid
    requires Shaped(grid)
    ensures (tx < 0 || tx >= COLS) ==> b
    ensures 0 <= tx < COLS && (ty < 0 || ty >= ROWS) ==> !b
    ensures InGrid(Tile(tx, ty)) && grid[ty, tx] == WALL ==> !b
    ensures InGrid(Tile(tx, ty)) && grid[ty, tx] == GHOST_DOOR ==> (b <==> !exited)
    ensures InGrid(Tile(tx, ty)) && grid[ty, tx] != WALL && grid[ty, tx] != GHOST_DOOR ==> b
  {
    if tx < 0 || tx >= COLS then true
    else if ty < 0 || ty >= ROWS then false
    else
      var cell := grid[ty, tx];
      if cell == WALL then false
      else if cell == GHOST_DOOR then !exited
      else true
  }

  /** Squared distance between two tiles. */
  function DistSq(a: Tile, b: Tile): nat
  {
    (a.x - b.x) * (a.x - b.x) + (a.y - b.y) * (a.y - b.y)
  }

  /** Direction `d` may be taken from tile `t` by a ghost heading `cur`
      without reversing: its neighbour is walkable and it is not the
      reversal of `cur`. */
  predicate Candidate(t: Tile, d: Dir, cur: Dir, grid: array2<int>, exited: bool)
    reads grid
    requires Shaped(grid)
  {
    d != Opposite(cur) && IsWalkable(t.x + DX(d), t.y + DY(d), grid, exited)
  }

  /** Position of a moving direction in the evaluation order. */
  function Rank(d: Dir): (k: nat)
    ensures d != NoDir ==> k < 4 && DIRS[k] == d
  {
    match d
    case Up => 0
    case Down => 1
    case Left => 2
    case Right => 3
    case NoDir => 4
  }

  /** `best` is what the greedy scan holds after the first `n` directions:
      nothing when none of them is a candidate, otherwise a candidate among
      them of least distance that no earlier candidate ties. */
  ghost predicate BestOver(n: nat, best: Option<Dir>, t: Tile, target: Tile, cur: Dir, grid: array2<int>, exited: bool)
    reads grid
    requires n <= 4 && Shaped(grid)
  {
    && (best.None? ==> forall k :: 0 <= k < n ==> !Candidate(t, DIRS[k], cur, grid, exited))
    && (best.Some? ==>
          && best.value != NoDir && Rank(best.value) < n
          && Candidate(t, best.value, cur, grid, exited)
          && forall k :: 0 <= k < n && Candidate(t, DIRS[k], cur, grid, exited) ==>
               DistSq(Neighbour(t, best.value), target) <= DistSq(Neighbour(t, DIRS[k]), target)
               && (k < Rank(best.value) ==> DistSq(Neighbour(t, DIRS[k]), target) > DistSq(Neighbour(t, best.value), target)))
  }

  /** The greedy scan from position `i` on, carrying the best so far; a
      direction replaces the best only when strictly closer. */
  function GreedyFrom(i: nat, best: Option<Dir>, t: Tile, target: Tile, cur: Dir, grid: array2<int>, exited: bool): Option<Dir>
    reads grid
    requires i <= 4 && Shaped(grid)
    decreases 4 - i
  {
    if i == 4 then best
    else GreedyFrom(i + 1, GreedyStep(i, best, t, target, cur, grid, exited), t, target, cur, grid, exited)
  }

  /** The greedy choice among the non-reversing walkable directions. */
  function Greedy(t: Tile, target: Tile, cur: Dir, grid: array2<int>, exited: bool): Option<Dir>
    reads grid
    requires Shaped(grid)
  {
    GreedyFrom(0, None, t, target, cur, grid, exited)
  }

  /** The step of the greedy scan: the best so far over the first `i`
      directions becomes the best over the first `i + 1`. */
  function GreedyStep(i: nat, best: Option<Dir>, t: Tile, target: Tile, cur: Dir, grid: array2<int>, exited: bool): Option<Dir>
    reads grid
    requires i < 4 && Shaped(grid)
  {
    var d := DIRS[i];
    if Candidate(t, d, cur, grid, exited)
       && (best.None? || DistSq(Neighbour(t, d), target) < DistSq(Neighbour(t, best.value), target))
    then Some(d) else best
  }

  lemma GreedyStepKeepsBest(i: nat, best: Option<Dir>, t: Tile, target: Tile, cur: Dir, grid: array2<int>, exited: bool)
    requires i < 4 && Shaped(grid)
    requires BestOver(i, best, t, target, cur, grid, exited)
    ensures BestOver(i + 1, GreedyStep(i, best, t, target, cur, grid, exited), t, target, cur, grid, exited)
  {
  }

  lemma {:induction false} GreedyFromKeepsBest(i: nat, best: Option<Dir>, t: Tile, target: Tile, cur: Dir, grid: array2<int>, exited: bool)
    requires i <= 4 && Shaped(grid)
    requires BestOver(i, best, t, target, cur, grid, exited)
    ensures BestOver(4, GreedyFrom(i, best, t, target, cur, grid, exited), t, target, cur, grid, exited)
    decreases 4 - i
  {
    if i < 4 {
      var best' := GreedyStep(i, best, t, target, cur, grid, exited);
      GreedyStepKeepsBest(i, best, t, target, cur, grid, exited);
      GreedyFromKeepsBest(i + 1, best', t, target, cur, grid, exited);
    }
  }

  /** What the greedy choice means: it finds nothing exactly when no
      direction other than the reversal leads to a walkable tile; otherwise
      it is such a direction, none is closer to the target, and on a tie
      the first in the order Up, Down, Left, Right wins. */
  lemma GreedySpec(t: Tile, target: Tile, cur: Dir, grid: array2<int>, exited: bool)
    requires Shaped(grid)
    ensures var g := Greedy(t, target, cur, grid, exited);
            && (g.None? <==> forall k :: 0 <= k < 4 ==> !Candidate(t, DIRS[k], cur, grid, exited))
            && (g.Some? ==>
                  && g.value != NoDir && g.value != Opposite(cur)
                  && IsWalkable(t.x + DX(g.value), t.y + DY(g.value), grid, exited)
                  && forall k :: 0 <= k < 4 && Candidate(t, DIRS[k], cur, grid, exited) ==>
                       DistSq(Neighbour(t, g.value), target) <= DistSq(Neighbour(t, DIRS[k]), target)
                       && (k < Rank(g.value) ==> DistSq(Neighbour(t, DIRS[k]), target) > DistSq(Neighbour(t, g.value), target)))
  {
    GreedyFromKeepsBest(0, None, t, target, cur, grid, exited);
  }

  /** The dead-end fallback: the first walkable direction in the order
      Up, Down, Left, Right from position `i` on, reversal included. */
  function FirstWalkableFrom(i: nat, t: Tile, grid: array2<int>, exited: bool): Option<Dir>
    reads grid
    requires i <= 4 && Shaped(grid)
    decreases 4 - i
  {
    if i == 4 then None
    else if IsWalkable(t.x + DX(DIRS[i]), t.y + DY(DIRS[i]), grid, exited) then Some(DIRS[i])
    else FirstWalkableFrom(i + 1, t, grid, exited)
  }

  /** What the fallback means: nothing exactly when no neighbour is
      walkable, otherwise the first walkable direction in the order. */
  lemma {:induction false} FirstWalkableSpec(i: nat, t: Tile, grid: array2<int>, exited: bool)
    requires i <= 4 && Shaped(grid)
    ensures var f := FirstWalkableFrom(i, t, grid, exited);
            && (f.None? <==> forall k :: i <= k < 4 ==> !IsWalkable(t.x + DX(DIRS[k]), t.y + DY(DIRS[k]), grid, exited))
            && (f.Some? ==>
                  && f.value != NoDir && i <= Rank(f.value)
                  && IsWalkable(t.x + DX(f.value), t.y + DY(f.value), grid, exited)
                  && forall k :: i <= k < Rank(f.value) ==> !IsWalkable(t.x + DX(DIRS[k]), t.y + DY(DIRS[k]), grid, exited))
    decreases 4 - i
  {
    if i < 4 {
      FirstWalkableSpec(i + 1, t, grid, exited);
    }
  }

  /** The four map corners a frightened ghost may flee to, in scan order. */
  const CORNERS: seq<Tile> := [Tile(1, 1), Tile(COLS - 2, 1), Tile(1, ROWS - 2), Tile(COLS - 2, ROWS - 2)]

  /** The corner scan from position `i` on, carrying the best corner so far
      and its squared distance; a corner replaces it only when strictly
      farther. */
  function FarthestFrom(i: nat, pac: Tile, best: Tile, bestDist: int): Tile
    requires i <= 4
    decreases 4 - i
  {
    if i == 4 then best
    else
      var d := DistSq(CORNERS[i], pac);
      if d > bestDist then FarthestFrom(i + 1, pac, CORNERS[i], d)
      else FarthestFrom(i + 1, pac, best, bestDist)
  }

  /** Where a frightened ghost heads when the player is on `pac`. */
  function FleeTarget(pac: Tile): Tile
  {
    FarthestFrom(0, pac, CORNERS[0], -1)
  }

  lemma {:induction false} FarthestFromSpec(i: nat, pac: Tile, best: Tile, bestDist: int)
    requires i <= 4
    requires i == 0 ==> bestDist == -1 && best == CORNERS[0]
    requires i > 0 ==> exists j :: 0 <= j < i && best == CORNERS[j] && bestDist == DistSq(best, pac)
                         && (forall k :: 0 <= k < i ==> DistSq(CORNERS[k], pac) <= bestDist)
                         && (forall k :: 0 <= k < j ==> DistSq(CORNERS[k], pac) < bestDist)
    ensures var r := FarthestFrom(i, pac, best, bestDist);
            exists j :: 0 <= j < 4 && r == CORNERS[j]
              && (forall k :: 0 <= k < 4 ==> DistSq(CORNERS[k], pac) <= DistSq(r, pac))
              && (forall k :: 0 <= k < j ==> DistSq(CORNERS[k], pac) < DistSq(r, pac))
    decreases 4 - i
  {
    if i < 4 {
      var d := DistSq(CORNERS[i], pac);
      if d > bestDist {
        FarthestFromSpec(i + 1, pac, CORNERS[i], d);
      } else {
        FarthestFromSpec(i + 1, pac, best, bestDist);
      }
    }
  }

  /** What the flee target means: the corner farthest from the player, the
      earliest in the scan order among equally far ones. */
  lemma FleeTargetSpec(pac: Tile)
    ensures var r := FleeTarget(pac);
            exists j :: 0 <= j < 4 && r == CORNERS[j]
              && (forall k :: 0 <= k < 4 ==> DistSq(CORNERS[k], pac) <= DistSq(r, pac))
              && (forall k :: 0 <= k < j ==> DistSq(CORNERS[k], pac) < DistSq(r, pac))
  {
    FarthestFromSpec(0, pac, CORNERS[0], -1);
  }

  /** The tile a roaming ghost steers to: the player's tile, or the flee
      corner while frightened. */
  function Target(frightened: bool, pac: Tile): Tile
  {
    if frightened then FleeTarget(pac) else pac
  }

  /** The direction a ghost at the centre of `t` takes: the greedy choice,
      else the fallback, else the direction it already had. */
  function Steering(t: Tile, target: Tile, cur: Dir, grid: array2<int>, exited: bool): Dir
    reads grid
    requires Shaped(grid)
  {
    match Greedy(t, target, cur, grid, exited)
    case Some(d) => d
    case None =>
      match FirstWalkableFrom(0, t, grid, exited)
      case Some(d) => d
      case None => cur
  }

  /** A ghost only reverses at a dead end, never heads into a closed tile
      when any neighbour is open, and keeps its direction when fully boxed. */
  lemma SteeringSpec(t: Tile, target: Tile, cur: Dir, grid: array2<int>, exited: bool)
    requires Shaped(grid)
    ensures var s := Steering(t, target, cur, grid, exited);
            && ((exists k :: 0 <= k < 4 && Candidate(t, DIRS[k], cur, grid, exited)) ==> s != Opposite(cur))
            && ((exists k :: 0 <= k < 4 && IsWalkable(t.x + DX(DIRS[k]), t.y + DY(DIRS[k]), grid, exited)) ==>
                  s != NoDir && IsWalkable(t.x + DX(s), t.y + DY(s), grid, exited))
            && ((forall k :: 0 <= k < 4 ==> !IsWalkable(t.x + DX(DIRS[k]), t.y + DY(DIRS[k]), grid, exited)) ==> s == cur)
  {
    GreedySpec(t, target, cur, grid, exited);
    FirstWalkableSpec(0, t, grid, exited);
    var g := Greedy(t, target, cur, grid, exited);
    if g.None? && exists k :: 0 <= k < 4 && IsWalkable(t.x + DX(DIRS[k]), t.y + DY(DIRS[k]), grid, exited) {
      var k :| 0 <= k < 4 && IsWalkable(t.x + DX(DIRS[k]), t.y + DY(DIRS[k]), grid, exited);
      assert FirstWalkableFrom(0, t, grid, exited).Some?;
    }
  }

  /** The greedy scan of `_moveInMaze`, as the loop the source runs. */
  method ChooseDirection(t: Tile, target: Tile, cur: Dir, grid: array2<int>, exited: bool) returns (best: Option<Dir>)
    requires Shaped(grid)
    ensures best == Greedy(t, target, cur, grid, exited)
  {
    var opposite := Opposite(cur);
    best := None;
    var bestDist := 0;  // meaningful only once `best` holds a direction
    for i := 0 to 4
      invariant GreedyFrom(i, best, t, target, cur, grid, exited) == Greedy(t, target, cur, grid, exited)
      invariant best.Some? ==> bestDist == DistSq(Neighbour(t, best.value), target)
    {
      var d := DIRS[i];
      assert GreedyFrom(i, best, t, target, cur, grid, exited)
          == GreedyFrom(i + 1, GreedyStep(i, best, t, target, cur, grid, exited), t, target, cur, grid, exited);
      if d == opposite {
        continue;
      }
      var ntx := t.x + DX(d);
      var nty := t.y + DY(d);
      if !IsWalkable(ntx, nty, grid, exited) {
        continue;
      }
      var dist := DistSq(Tile(ntx, nty), target);
      if best.None? || dist < bestDist {
        bestDist := dist;
        best := Some(d);
      }
    }
  }

  /** The dead-end fallback loop of `_moveInMaze`. */
  method FirstWalkable(t: Tile, grid: array2<int>, exited: bool) returns (found: Option<Dir>)
    requires Shaped(grid)
    ensures found == FirstWalkableFrom(0, t, grid, exited)
  {
    found := None;
    var i := 0;
    while i < 4
      invariant 0 <= i <= 4
      invariant FirstWalkableFrom(0, t, grid, exited) == FirstWalkableFrom(i, t, grid, exited)
    {
      var d := DIRS[i];
      if IsWalkable(t.x + DX(d), t.y + DY(d), grid, exited) {
        found := Some(d);
        break;
      }
      i := i + 1;
    }
  }

  /** The steering at a tile centre: the greedy choice, else the first
      walkable direction, else the current direction. */
  method SteerAt(t: Tile, target: Tile, cur: Dir, grid: array2<int>, exited: bool) returns (d: Dir)
    requires Shaped(grid)
    ensures d == Steering(t, target, cur, grid, exited)
  {
    var bestDir := ChooseDirection(t, target, cur, grid, exited);
    if bestDir.None? {
      bestDir := FirstWalkable(t, grid, exited);
    }
    d := cur;
    if bestDir.Some? {
      d := bestDir.value;
    }
  }

  /** The corner scan of `_moveInMaze` for a frightened ghost. */
  method FarthestCorner(pac: Tile) returns (target: Tile)
    ensures target == FleeTarget(pac)
  {
    var maxDistSq := -1;
    target := CORNERS[0];
    for i := 0 to 4
      invariant FarthestFrom(i, pac, target, maxDistSq) == FleeTarget(pac)
    {
      var corner := CORNERS[i];
      var dSq := (corner.x - pac.x) * (corner.x - pac.x) + (corner.y - pac.y) * (corner.y - pac.y);
      if dSq > maxDistSq {
        maxDistSq := dSq;
        target := corner;
      }
    }
  }

  /** The unit step of `v` towards zero's other side: -1, 0 or 1. */
  function Sign(v: int): int
  {
    if v > 0 then 1 else if v < 0 then -1 else 0
  }

  /** `Sign(v)` scaled by a displacement of `step` pixels. */
  function Toward(v: int, step: int): (r: int)
    ensures r == Sign(v) * step
  {
    if v > 0 then step else if v < 0 then -step else 0
  }

  function Abs(v: int): nat
  {
    if v < 0 then -v else v
  }

  /** The fields of a ghost at one moment, as a value. */
  datatype GhostView = GhostView(x: int, y: int, dir: Dir, frightened: bool, eaten: bool,
                                 exited: bool, exiting: bool, exitTimer: int)

  /** Pixel centre of ghost `i`'s home tile. */
  function HomeX(i: GhostIndex): int
  {
    Centre(GHOST_HOME[i].x)
  }

  function HomeY(i: GhostIndex): int
  {
    Centre(GHOST_HOME[i].y)
  }

  /** One frame of waiting in the house takes ghost `i` from `a` to `b`:
      the delay runs down and the ghost sits on its home tile; once the
      delay is spent it starts exiting from the door column, facing up, one
      pixel higher. */
  predicate Waited(i: GhostIndex, a: GhostView, b: GhostView, dtMs: int)
  {
    && b.exitTimer == a.exitTimer - dtMs
    && b.exiting == (a.exiting || b.exitTimer <= 0)
    && (b.exitTimer <= 0 ==> b.x == DOOR_X && b.y == HomeY(i) - 1 && b.dir == Up)
    && (b.exitTimer > 0 ==> b.x == HomeX(i) && b.y == HomeY(i) && b.dir == a.dir)
    && b.frightened == a.frightened && b.eaten == a.eaten && b.exited == a.exited
  }

  /** One frame of walking out takes a ghost from `a` to `b`: straight up
      the door column by `step`; on reaching the exit row the ghost stops
      exactly on it, has exited, and picks a direction there without
      moving. */
  predicate WalkedOut(a: GhostView, b: GhostView, step: nat, pac: Tile, grid: array2<int>)
    reads grid
    requires Shaped(grid)
  {
    && b.x == DOOR_X
    && (a.y - step <= EXIT_Y ==>
          && b.y == EXIT_Y && !b.exiting && b.exited
          && b.dir == Steering(Tile(GHOST_DOOR_COL, GHOST_EXIT_ROW), Target(a.frightened, pac), Up, grid, true))
    && (a.y - step > EXIT_Y ==>
          b.y == a.y - step && b.dir == Up && b.exiting == a.exiting && b.exited == a.exited)
    && b.frightened == a.frightened && b.eaten == a.eaten && b.exitTimer == a.exitTimer
  }

  /** One frame of returning home takes ghost `i` from `a` to `b`: within 4
      pixels of home on both axes the ghost lands there and starts waiting
      again, with every flag cleared and the re-exit delay; otherwise it
      closes in along the axis with the larger gap by `step`, nudged on the
      other axis by `assist` while moving vertically. */
  predicate Returned(i: GhostIndex, a: GhostView, b: GhostView, step: nat, assist: nat)
  {
    var dx := HomeX(i) - a.x;
    var dy := HomeY(i) - a.y;
    if Abs(dx) < 4 && Abs(dy) < 4 then
      && !b.eaten && !b.frightened && !b.exited && !b.exiting
      && b.exitTimer == REEXIT_DELAY && b.x == HomeX(i) && b.y == HomeY(i) && b.dir == Up
    else
      && (Abs(dx) > Abs(dy) ==> b.x == a.x + Toward(dx, step) && b.y == a.y)
      && (Abs(dx) <= Abs(dy) ==>
            b.y == a.y + Toward(dy, step)
            && b.x == a.x + (if Abs(dx) > 1 then Toward(dx, assist) else 0))
      && b.dir == a.dir && b.eaten == a.eaten && b.frightened == a.frightened
      && b.exited == a.exited && b.exiting == a.exiting && b.exitTimer == a.exitTimer
  }

  /** One frame of roaming takes a ghost from `a` to `b`: at a tile centre
      it snaps to the centre and steers towards its target; then, when time
      has passed, it moves `step` pixels in its direction, wrapping through
      the side tunnel. Its flags and delay do not change. */
  predicate Roamed(a: GhostView, b: GhostView, dtMs: int, step: nat, pac: Tile, grid: array2<int>)
    reads grid
    requires Shaped(grid)
  {
    var at := AtCentre(a.x, a.y);
    var t := Tile(TileOf(a.x), TileOf(a.y));
    var x0 := if at then Snapped(a.x) else a.x;
    var y0 := if at then Snapped(a.y) else a.y;
    && b.dir == (if at then Steering(t, Target(a.frightened, pac), a.dir, grid, a.exited) else a.dir)
    && b.x == (if dtMs > 0 then Wrapped(x0 + StepX(b.dir, step)) else x0)
    && b.y == (if dtMs > 0 then y0 + StepY(b.dir, step) else y0)
    && b.frightened == a.frightened && b.eaten == a.eaten && b.exited == a.exited
    && b.exiting == a.exiting && b.exitTimer == a.exitTimer
  }

  /** One frame of `Update` takes ghost `i` from `a` to `b`: the effect of
      the phase it was in, at that phase's displacement. */
  predicate Stepped(i: GhostIndex, a: GhostView, b: GhostView, dtMs: int, strides: GhostStrides,
                    pac: Tile, grid: array2<int>)
    reads grid
    requires Shaped(grid)
  {
    match PhaseOf(a.exited, a.exiting, a.eaten)
    case Waiting => Waited(i, a, b, dtMs)
    case Exiting => WalkedOut(a, b, strides.exit, pac, grid)
    case Returning => Returned(i, a, b, strides.homing, strides.assist)
    case Roaming => Roamed(a, b, dtMs, if a.frightened then strides.frightened else strides.roam, pac, grid)
  }

  class Ghost {
    const index: GhostIndex
    var x: int
    var y: int
    var dir: Dir
    var frightened: bool
    var eaten: bool
    var exited: bool
    var exiting: bool
    var exitTimer: int

    /** The ghost's fields as a value. */
    function View(): GhostView
      reads this
    {
      GhostView(x, y, dir, frightened, eaten, exited, exiting, exitTimer)
    }

    /** The phase the next `Update` runs. */
    function CurrentPhase(): Phase
      reads this
    {
      PhaseOf(exited, exiting, eaten)
    }

    /** The starting state: on the home tile facing up, every flag clear,
        with the staggered delay of this ghost. */
    predicate AtStart()
      reads this
    {
      && x == HomeX(index) && y == HomeY(index) && dir == Up
      && !frightened && !eaten && !exited && !exiting
      && exitTimer == EXIT_TIMERS[index]
    }

    /** The tile the ghost is on. */
    function GetTile(): (t: Tile)
      reads this
      ensures t.x * TILE <= x < t.x * TILE + TILE
      ensures t.y * TILE <= y < t.y * TILE + TILE
    {
      Tile(TileOf(x), TileOf(y))
    }

    /** A ghost at the centre of its home tile, facing up, waiting for its
        staggered delay. */
    constructor (i: GhostIndex)
      ensures index == i && x == HomeX(index) && y == HomeY(index) && dir == Up
      ensures !frightened && !eaten && !exited && !exiting
      ensures exitTimer == EXIT_TIMERS[i]
      ensures AtStart() && CurrentPhase() == Waiting
    {
      index := i;
      x := Centre(GHOST_HOME[i].x);
      y := Centre(GHOST_HOME[i].y);
      dir := Up;
      frightened := false;
      eaten := false;
      exited := false;
      exiting := false;
      exitTimer := EXIT_TIMERS[i];
    }

    /** Back to the constructor's state. */
    method Reset()
      modifies this
      ensures x == HomeX(index) && y == HomeY(index) && dir == Up
      ensures !frightened && !eaten && !exited && !exiting
      ensures exitTimer == EXIT_TIMERS[index]
      ensures AtStart()
    {
      x := HomeX(index);
      y := HomeY(index);
      dir := Up;
      frightened := false;
      eaten := false;
      exited := false;
      exiting := false;
      exitTimer := EXIT_TIMERS[index];
    }

    method Update(dtMs: int, strides: GhostStrides, pac: Tile, grid: array2<int>)
      requires Shaped(grid)
      modifies this
      ensures Stepped(index, old(View()), View(), dtMs, strides, pac, grid)
    {
      if !exited && !exiting {
        WaitInHouse(dtMs);
        return;
      }
      if exiting {
        WalkOutDoor(strides.exit, pac, grid);
        return;
      }
      if eaten {
        ReturnHome(strides.homing, strides.assist);
        return;
      }
      MoveInMaze(dtMs, if frightened then strides.frightened else strides.roam, pac, grid);
    }

    /** Phase 1: wait in the house (the vertical bob is not modelled). */
    method WaitInHouse(dtMs: int)
      modifies this
      ensures Waited(index, old(View()), View(), dtMs)
    {
      exitTimer := exitTimer - dtMs;
      y := HomeY(index);
      x := HomeX(index);
      if exitTimer <= 0 {
        exiting := true;
        x := DOOR_X;
        dir := Up;
        y := y - 1;
      }
    }

    /** Phase 2: walk up through the door to the exit row. */
    method WalkOutDoor(step: nat, pac: Tile, grid: array2<int>)
      requires Shaped(grid)
      modifies this
      ensures WalkedOut(old(View()), View(), step, pac, grid)
    {
      dir := Up;
      y := y - step;
      x := DOOR_X;
      if y <= EXIT_Y {
        y := EXIT_Y;
        exiting := false;
        exited := true;
        MoveInMaze(0, 0, pac, grid);
      }
    }

    /** Phase 3: home straight back after being eaten. */
    method ReturnHome(step: nat, assist: nat)
      modifies this
      ensures Returned(index, old(View()), View(), step, assist)
    {
      var hx := HomeX(index);
      var hy := HomeY(index);
      if Abs(x - hx) < 4 && Abs(y - hy) < 4 {
        eaten := false;
        frightened := false;
        exited := false;
        exiting := false;
        exitTimer := REEXIT_DELAY;
        x := hx;
        y := hy;
        dir := Up;
      } else {
        var dx := hx - x;
        var dy := hy - y;
        if Abs(dx) > Abs(dy) {
          x := x + Toward(dx, step);
        } else {
          y := y + Toward(dy, step);
          if Abs(dx) > 1 {
            x := x + Toward(dx, assist);
          }
        }
      }
    }

    /** Phase 4: roam the maze, steering at tile centres. */
    method MoveInMaze(dtMs: int, step: nat, pac: Tile, grid: array2<int>)
      requires Shaped(grid)
      modifies this
      ensures Roamed(old(View()), View(), dtMs, step, pac, grid)
    {
      if AtCentre(x, y) {
        TurnAtCentre(pac, grid);
      }
      if dtMs > 0 {
        x := x + StepX(dir, step);
        y := y + StepY(dir, step);
        x := Wrapped(x);
      }
    }

    /** At a tile centre: snap to it and steer towards the player's tile,
        or towards the farthest corner while frightened. */
    method TurnAtCentre(pac: Tile, grid: array2<int>)
      requires Shaped(grid)
      modifies this`x, this`y, this`dir
      ensures x == Snapped(old(x)) && y == Snapped(old(y))
      ensures dir == Steering(Tile(TileOf(old(x)), TileOf(old(y))), Target(frightened, pac), old(dir), grid, exited)
    {
      x := Snapped(x);
      y := Snapped(y);
      var t := Tile(TileOf(x), TileOf(y));
      var target := pac;
      if frightened {
        target := FarthestCorner(pac);
      }
      dir := SteerAt(t, target, dir, grid, exited);
    }
  }
}

=== FILE: grid.dfy ===
/** The maze grid: a 21 x 21 array of cell codes that the player's pickups
    rewrite in place, its value snapshot, and cell counts over snapshots. */
module Grids {
  import opened Constants

  /** A level template or a snapshot of the live map, indexed `[row][col]`. */
  type Cells = seq<seq<int>>

  /** The live map has the fixed ROWS x COLS shape. */
  predicate Shaped(g: array2<int>)
  {
    g.Length0 == ROWS && g.Length1 == COLS
  }

  /** A template or snapshot of ROWS rows of COLS cells each. */
  predicate WellFormed(t: Cells)
  {
    |t| == ROWS && forall r :: 0 <= r < |t| ==> |t[r]| == COLS
  }

  /** The value of the live map, row by row. */
  ghost function Snapshot(g: array2<int>): (t: Cells)
    reads g
    ensures |t| == g.Length0
    ensures forall r :: 0 <= r < |t| ==> |t[r]| == g.Length1
    ensures forall r, c :: 0 <= r < g.Length0 && 0 <= c < g.Length1 ==> t[r][c] == g[r, c]
  {
    seq(g.Length0, r requires 0 <= r < g.Length0 reads g =>
      seq(g.Length1, c requires 0 <= c < g.Length1 reads g => g[r, c]))
  }

  /** A live map that agrees with `t` except at cell (r, c), which holds `w`,
      has snapshot `t` with that one cell rewritten. */
  lemma SnapshotAfterWrite(g: array2<int>, t: Cells, r: nat, c: nat, w: int)
    requires |t| == g.Length0 && forall i :: 0 <= i < |t| ==> |t[i]| == g.Length1
    requires r < g.Length0 && c < g.Length1
    requires forall i, j :: 0 <= i < g.Length0 && 0 <= j < g.Length1 ==>
               g[i, j] == if i == r && j == c then w else t[i][j]
    ensures Snapshot(g) == t[r := t[r][c := w]]
  {
    var s := Snapshot(g);
    var u := t[r := t[r][c := w]];
    forall i | 0 <= i < |s|
      ensures s[i] == u[i]
    {
      assert |s[i]| == |u[i]|;
      forall j | 0 <= j < |s[i]|
        ensures s[i][j] == u[i][j]
      {
      }
    }
  }

  /** A live map that agrees with `t` everywhere has snapshot `t`. */
  lemma SnapshotSame(g: array2<int>, t: Cells)
    requires |t| == g.Length0 && forall i :: 0 <= i < |t| ==> |t[i]| == g.Length1
    requires forall i, j :: 0 <= i < g.Length0 && 0 <= j < g.Length1 ==> g[i, j] == t[i][j]
    ensures Snapshot(g) == t
  {
    var s := Snapshot(g);
    forall i | 0 <= i < |s|
      ensures s[i] == t[i]
    {
      assert |s[i]| == |t[i]|;
    }
  }

  /** Number of cells equal to `v` in one row. */
  function RowCount(row: seq<int>, v: int): (n: nat)
    ensures n <= |row|
  {
    if row == [] then 0
    else RowCount(row[..|row| - 1], v) + (if row[|row| - 1] == v then 1 else 0)
  }

  /** Number of cells equal to `v` in the whole grid. */
  function Count(t: Cells, v: int): nat
  {
    if t == [] then 0
    else Count(t[..|t| - 1], v) + RowCount(t[|t| - 1], v)
  }

  /** A pellet is a DOT or a POWER cell. */
  predicate IsPellet(cell: int)
  {
    cell == DOT || cell == POWER
  }

  /** Number of pellet cells in one row. */
  function RowPellets(row: seq<int>): nat
  {
    if row == [] then 0
    else RowPellets(row[..|row| - 1]) + (if IsPellet(row[|row| - 1]) then 1 else 0)
  }

  /** Number of pellet cells in the whole grid. */
  function Pellets(t: Cells): nat
  {
    if t == [] then 0
    else Pellets(t[..|t| - 1]) + RowPellets(t[|t| - 1])
  }

  /** Counting pellets in a row counts its DOTs and its POWERs. */
  lemma {:induction false} RowPelletsSplit(row: seq<int>)
    ensures RowPellets(row) == RowCount(row, DOT) + RowCount(row, POWER)
  {
    if row != [] {
      RowPelletsSplit(row[..|row| - 1]);
    }
  }

  /** Counting pellets in a grid counts its DOTs and its POWERs. */
  lemma {:induction false} PelletsSplit(t: Cells)
    ensures Pellets(t) == Count(t, DOT) + Count(t, POWER)
  {
    if t != [] {
      PelletsSplit(t[..|t| - 1]);
      RowPelletsSplit(t[|t| - 1]);
    }
  }

  /** Rewriting one cell of a row changes its count of `v` by the
      difference that one cell makes. */
  lemma {:induction false} RowCountUpdate(row: seq<int>, c: nat, w: int, v: int)
    requires c < |row|
    ensures RowCount(row[c := w], v)
         == RowCount(row, v) - (if row[c] == v then 1 else 0) + (if w == v then 1 else 0)
  {
    var row' := row[c := w];
    if c == |row| - 1 {
      assert row'[..|row'| - 1] == row[..|row| - 1];
    } else {
      assert row'[..|row'| - 1] == row[..|row| - 1][c := w];
      RowCountUpdate(row[..|row| - 1], c, w, v);
    }
  }

  /** Rewriting one cell of a grid changes its count of `v` by the
      difference that one cell makes. */
  lemma {:induction false} CountUpdate(t: Cells, r: nat, c: nat, w: int, v: int)
    requires r < |t| && c < |t[r]|
    ensures Count(t[r := t[r][c := w]], v)
         == Count(t, v) - (if t[r][c] == v then 1 else 0) + (if w == v then 1 else 0)
  {
    var t' := t[r := t[r][c := w]];
    if r == |t| - 1 {
      assert t'[..|t'| - 1] == t[..|t| - 1];
      RowCountUpdate(t[r], c, w, v);
    } else {
      assert t'[..|t'| - 1] == t[..|t| - 1][r := t[r][c := w]];
      CountUpdate(t[..|t| - 1], r, c, w, v);
    }
  }
  /** A row holding `v` somewhere counts it at least once. */
  lemma {:induction false} RowCountPositive(row: seq<int>, c: nat, v: int)
    requires c < |row| && row[c] == v
    ensures RowCount(row, v) > 0
  {
    if c < |row| - 1 {
      RowCountPositive(row[..|row| - 1], c, v);
    }
  }

  /** A grid holding `v` somewhere counts it at least once. */
  lemma {:induction false} CountPositive(t: Cells, r: nat, c: nat, v: int)
    requires r < |t| && c < |t[r]| && t[r][c] == v
    ensures Count(t, v) > 0
  {
    if r < |t| - 1 {
      CountPositive(t[..|t| - 1], r, c, v);
    } else {
      RowCountPositive(t[r], c, v);
    }
  }

  /** A row without `v` counts it zero times. */
  lemma {:induction false} RowCountAbsent(row: seq<int>, v: int)
    requires forall c :: 0 <= c < |row| ==> row[c] != v
    ensures RowCount(row, v) == 0
  {
    if row != [] {
      RowCountAbsent(row[..|row| - 1], v);
    }
  }

  /** A grid without `v` counts it zero times. */
  lemma {:induction false} CountAbsent(t: Cells, v: int)
    requires forall r, c :: 0 <= r < |t| && 0 <= c < |t[r]| ==> t[r][c] != v
    ensures Count(t, v) == 0
  {
    if t != [] {
      CountAbsent(t[..|t| - 1], v);
      RowCountAbsent(t[|t| - 1], v);
    }
  }
}

=== FILE: mushroom.dfy ===
/** The glowing mushroom: a power-up that appears on a random open tile
    inside the maze and wanders on its own until it is collected or its
    lifetime runs out. The random draws are caller-supplied rolls. */
module Mushrooms {
  import opened Constants
  import opened Grids
  import opened Entities

  /** The mushroom may enter tile (tx, ty): only inside the grid (there is
      no tunnel for it), and never a wall or the ghost-house door. */
  function IsWalkable(tx: int, ty: int, grid: array2<int>): (b: bool)
    reads grid
    requires Shaped(grid)
    ensures b <==> InGrid(Tile(tx, ty)) && grid[ty, tx] != WALL && grid[ty, tx] != GHOST_DOOR
  {
    if tx < 0 || tx >= COLS then false
    else if ty < 0 || ty >= ROWS then false
    else
      var cell := grid[ty, tx];
      if cell == WALL then false
      else if cell == GHOST_DOOR then false
      else true
  }

  /** Direction `d` leads from `t` to a tile the mushroom may enter. */
  predicate Open(t: Tile, d: Dir, grid: array2<int>)
    reads grid
    requires Shaped(grid)
  {
    IsWalkable(t.x + DX(d), t.y + DY(d), grid)
  }

  /** The open directions from `t` among `DIRS[i..]`, in that order. */
  function OpenDirsFrom(i: nat, t: Tile, grid: array2<int>): (ds: seq<Dir>)
    reads grid
    requires i <= 4 && Shaped(grid)
    ensures |ds| <= 4 - i
    ensures forall d :: d in ds <==> d in DIRS[i..] && Open(t, d, grid)
    decreases 4 - i
  {
    if i == 4 then []
    else
      var rest := OpenDirsFrom(i + 1, t, grid);
      assert DIRS[i..] == [DIRS[i]] + DIRS[i + 1..];
      if Open(t, DIRS[i], grid) then [DIRS[i]] + rest else rest
  }

  /** The open directions from `t`, in the order Up, Down, Left, Right. */
  function OpenDirs(t: Tile, grid: array2<int>): (ds: seq<Dir>)
    reads grid
    requires Shaped(grid)
    ensures |ds| <= 4
    ensures forall d :: d in ds <==> d != NoDir && Open(t, d, grid)
  {
    assert DIRS[0..] == DIRS;
    OpenDirsFrom(0, t, grid)
  }

  /** A tile the mushroom may appear on: strictly inside the border, and
      empty or holding a dot. */
  predicate SpawnCell(grid: array2<int>, t: Tile)
    reads grid
    requires Shaped(grid)
  {
    1 <= t.y < ROWS - 1 && 1 <= t.x < COLS - 1
    && (grid[t.y, t.x] == EMPTY || grid[t.y, t.x] == DOT)
  }

  /** Row-major order of tiles. */
  predicate Before(a: Tile, b: Tile)
  {
    a.y < b.y || (a.y == b.y && a.x < b.x)
  }

  /** `valid` lists every spawn tile of `grid`, and nothing else, in
      row-major order. */
  ghost predicate SpawnList(grid: array2<int>, valid: seq<Tile>)
    reads grid
    requires Shaped(grid)
  {
    && (forall i :: 0 <= i < |valid| ==> SpawnCell(grid, valid[i]))
    && (forall t :: SpawnCell(grid, t) ==> t in valid)
    && (forall i, j :: 0 <= i < j < |valid| ==> Before(valid[i], valid[j]))
  }

  /** The spawn list is determined by the grid: two lists that both satisfy
      `SpawnList` are the same list. */
  lemma {:induction false} SpawnListUnique(grid: array2<int>, a: seq<Tile>, b: seq<Tile>)
    requires Shaped(grid)
    requires SpawnList(grid, a) && SpawnList(grid, b)
    ensures a == b
  {
    SortedSameElements(a, b);
  }

  /** The head of a row-major sorted list comes before every other element
      of it. */
  lemma HeadLeast(s: seq<Tile>, t: Tile)
    requires forall i, j :: 0 <= i < j < |s| ==> Before(s[i], s[j])
    requires t in s
    ensures t == s[0] || Before(s[0], t)
  {
  }

  /** A non-empty list holds its head. */
  lemma HasHead(s: seq<Tile>)
    ensures |s| > 0 ==> s[0] in s
  {
  }

  /** Two row-major sorted lists with the same elements are equal. */
  lemma {:induction false} SortedSameElements(a: seq<Tile>, b: seq<Tile>)
    requires forall i, j :: 0 <= i < j < |a| ==> Before(a[i], a[j])
    requires forall i, j :: 0 <= i < j < |b| ==> Before(b[i], b[j])
    requires forall t :: t in a <==> t in b
    ensures a == b
    decreases |a|
  {
    HasHead(a);
    HasHead(b);
    if a != [] && b != [] {
      // Both heads are the least element, so they agree.
      HeadLeast(a, b[0]);
      HeadLeast(b, a[0]);
      forall t
        ensures t in a[1..] <==> t in b[1..]
      {
        if t in a[1..] {
          HeadLeast(a, t);
        }
        if t in b[1..] {
          HeadLeast(b, t);
        }
      }
      SortedSameElements(a[1..], b[1..]);
      assert a == [a[0]] + a[1..];
      assert b == [b[0]] + b[1..];
    }
  }

  /** The scan of `spawn`: the interior rows top to bottom, each row left to
      right, keeping the EMPTY and DOT tiles. */
  method CollectSpawnTiles(grid: array2<int>) returns (valid: seq<Tile>)
    requires Shaped(grid)
    ensures SpawnList(grid, valid)
  {
    valid := [];
    for r := 1 to ROWS - 1
      invariant forall i :: 0 <= i < |valid| ==> SpawnCell(grid, valid[i]) && valid[i].y < r
      invariant forall t :: SpawnCell(grid, t) && t.y < r ==> t in valid
      invariant forall i, j :: 0 <= i < j < |valid| ==> Before(valid[i], valid[j])
    {
      for c := 1 to COLS - 1
        invariant forall i :: 0 <= i < |valid| ==> SpawnCell(grid, valid[i]) && Before(valid[i], Tile(c, r))
        invariant forall t :: SpawnCell(grid, t) && Before(t, Tile(c, r)) ==> t in valid
        invariant forall i, j :: 0 <= i < j < |valid| ==> Before(valid[i], valid[j])
      {
        var cell := grid[r, c];
        if cell == EMPTY || cell == DOT {
          valid := valid + [Tile(c, r)];
        }
      }
    }
  }

  class Mushroom {
    var x: int
    var y: int
    var dir: Dir
    var active: bool
    var lifetime: int

    /** Inactive at the origin, stopped, with no lifetime. */
    constructor ()
      ensures x == 0 && y == 0 && dir == NoDir && !active && lifetime == 0
    {
      x := 0;
      y := 0;
      dir := NoDir;
      active := false;
      lifetime := 0;
    }

    /** The tile the mushroom is on. The mushroom is not an `Entity` and
        carries its own copy of the tile arithmetic, so this repeats
        `Entity.GetTile`. */
    function GetTile(): (t: Tile)
      reads this
      ensures t.x * TILE <= x < t.x * TILE + TILE
      ensures t.y * TILE <= y < t.y * TILE + TILE
    {
      Tile(TileOf(x), TileOf(y))
    }

    /** Within 2 pixels of the tile centre on both axes: `AtCentre` of the
        mushroom's position, the same test as `Entity.IsAtTileCenter`. */
    predicate IsAtTileCenter()
      reads this
    {
      AtCentre(x, y)
    }

    /** Moves to the exact centre of the current tile. */
    method SnapToCenter()
      modifies this`x, this`y
      ensures x == Snapped(old(x)) && y == Snapped(old(y))
      ensures GetTile() == old(GetTile()) && IsAtTileCenter()
    {
      x := Centre(TileOf(x));
      y := Centre(TileOf(y));
    }

    /** Leaves the map: inactive and stopped. */
    method Deactivate()
      modifies this`active, this`dir
      ensures !active && dir == NoDir
    {
      active := false;
      dir := NoDir;
    }

    /** Picks one of the open directions from the current tile with the
        roll reduced modulo their number, or stops when there is none. */
    method ChooseRandomDirection(grid: array2<int>, roll: nat)
      requires Shaped(grid)
      modifies this`dir
      ensures var ds := OpenDirs(GetTile(), grid);
              if |ds| > 0 then dir == ds[roll % |ds|] else dir == NoDir
      ensures dir == NoDir <==> forall k :: 0 <= k < 4 ==> !Open(GetTile(), DIRS[k], grid)
      ensures dir != NoDir ==> Open(GetTile(), dir, grid)
    {
      var tile := GetTile();
      var validDirs := OpenDirs(tile, grid);
      if |validDirs| > 0 {
        dir := validDirs[roll % |validDirs|];
        assert dir in validDirs;
      } else {
        dir := NoDir;
        forall k | 0 <= k < 4
          ensures !Open(tile, DIRS[k], grid)
        {
          assert DIRS[k] != NoDir && DIRS[k] !in validDirs;
        }
      }
    }

    /** Appears at the centre of a spawn tile picked by `tileRoll` from the
        row-major list of spawn tiles, active for `life` ms, heading in a
        direction picked by `dirRoll`; with no spawn tile nothing changes. */
    method Spawn(grid: array2<int>, life: int, tileRoll: nat, dirRoll: nat) returns (ghost valid: seq<Tile>)
      requires Shaped(grid)
      modifies this
      ensures SpawnList(grid, valid)
      ensures |valid| == 0 ==> unchanged(this)
      ensures |valid| > 0 ==>
                var t := valid[tileRoll % |valid|];
                && SpawnCell(grid, t)
                && x == Centre(t.x) && y == Centre(t.y) && GetTile() == t
                && active && lifetime == life
                && (var ds := OpenDirs(t, grid); if |ds| > 0 then dir == ds[dirRoll % |ds|] else dir == NoDir)
    {
      var validTiles := CollectSpawnTiles(grid);
      valid := validTiles;
      if |validTiles| == 0 {
        return;
      }
      var tile := validTiles[tileRoll % |validTiles|];
      x := Centre(tile.x);
      y := Centre(tile.y);
      active := true;
      lifetime := life;
      ChooseRandomDirection(grid, dirRoll);
    }

    /** One frame of wandering. `turnRoll` is the 3% chance of turning at an
        open tile centre; `roll` picks among the open directions. The map is
        only read. */
    method Update(dtMs: int, step: nat, grid: array2<int>, turnRoll: bool, roll: nat)
      requires Shaped(grid)
      modifies this
      ensures !old(active) ==> unchanged(this)
      ensures old(active) ==> lifetime == old(lifetime) - dtMs
      ensures old(active) && lifetime <= 0 ==>
                !active && dir == NoDir && x == old(x) && y == old(y)
      ensures old(active) && lifetime > 0 && old(dir) == NoDir ==>
                active && x == old(x) && y == old(y)
                && (var ds := OpenDirs(GetTile(), grid); if |ds| > 0 then dir == ds[roll % |ds|] else dir == NoDir)
      ensures old(active) && lifetime > 0 && old(dir) != NoDir ==>
                var at := AtCentre(old(x), old(y));
                var x0 := if at then Snapped(old(x)) else old(x);
                var y0 := if at then Snapped(old(y)) else old(y);
                var t := Tile(TileOf(old(x)), TileOf(old(y)));
                var ds := OpenDirs(t, grid);
                && active
                && (!at ==> dir == old(dir))
                && (at && Open(t, old(dir), grid) && !turnRoll ==> dir == old(dir))
                && (at && (!Open(t, old(dir), grid) || turnRoll) ==>
                      if |ds| > 0 then dir == ds[roll % |ds|] else dir == NoDir)
                && x == x0 + StepX(dir, step) && y == y0 + StepY(dir, step)
    {
      if !active {
        return;
      }
      lifetime := lifetime - dtMs;
      if lifetime <= 0 {
        Deactivate();
        return;
      }
      if dir == NoDir {
        ChooseRandomDirection(grid, roll);
        return;
      }
      if IsAtTileCenter() {
        SnapToCenter();
        var tile := GetTile();
        if !IsWalkable(tile.x + DX(dir), tile.y + DY(dir), grid) {
          ChooseRandomDirection(grid, roll);
        } else if turnRoll {
          ChooseRandomDirection(grid, roll);
        }
      }
      if dir != NoDir {
        x := x + StepX(dir, step);
        y := y + StepY(dir, step);
      }
    }
  }
}

=== FILE: pacman.dfy ===
/** The player: walkability, the queued-direction turn and stop decision at
    tile centres, dot and power-pellet pickup that rewrites one map cell in
    place, the mouth animation and the two power timers. */
module Player {
  import opened Constants
  import opened Grids
  import opened Entities

  /** What one move reports to the orchestrator. */
  datatype MoveResult = MoveResult(scoreDelta: int, dotsEaten: int, powerEaten: bool)

  /** This frame's displacement in pixels at normal speed, under the speed
      boost (x1.5) and under the mushroom power (x1.7). */
  datatype PacStrides = PacStrides(base: nat, boosted: nat, mushroom: nat)

  /** The player may enter tile (tx, ty): any column outside the grid is the
      side tunnel, a row outside the grid never is, and inside the grid only
      walls and the ghost-house door are closed. */
  function IsWalkable(tx: int, ty: int, grid: array2<int>): (b: bool)
    reads grid
    requires Shaped(grid)
    ensures (tx < 0 || tx >= COLS) ==> b
    ensures 0 <= tx < COLS && (ty < 0 || ty >= ROWS) ==> !b
    ensures InGrid(Tile(tx, ty)) ==> (b <==> grid[ty, tx] != WALL && grid[ty, tx] != GHOST_DOOR)
  {
    if tx < 0 || tx >= COLS then true
    else if ty < 0 || ty >= ROWS then false
    else
      var cell := grid[ty, tx];
      cell != WALL && cell != GHOST_DOOR
  }

  /** The displacement that applies: the mushroom power wins over the boost. */
  function Stride(s: PacStrides, mushroomTimer: int, boostTimer: int): (step: nat)
    ensures mushroomTimer > 0 ==> step == s.mushroom
    ensures mushroomTimer <= 0 && boostTimer > 0 ==> step == s.boosted
    ensures mushroomTimer <= 0 && boostTimer <= 0 ==> step == s.base
  {
    if mushroomTimer > 0 then s.mushroom
    else if boostTimer > 0 then s.boosted
    else s.base
  }

  /** This frame's motion along the axis of travel reaches or crosses the
      centre of the current tile, coming from the side before it. */
  predicate PassesCentre(x: int, y: int, dir: Dir, step: nat)
  {
    var cx := Centre(TileOf(x));
    var cy := Centre(TileOf(y));
    (DX(dir) > 0 && x < cx && x + StepX(dir, step) >= cx)
    || (DX(dir) < 0 && x > cx && x + StepX(dir, step) <= cx)
    || (DY(dir) > 0 && y < cy && y + StepY(dir, step) >= cy)
    || (DY(dir) < 0 && y > cy && y + StepY(dir, step) <= cy)
  }

  /** The move decides its direction this frame: it passes the centre, or it
      already stands at the centre with a turn queued or a blocked way ahead. */
  predicate DecisionPoint(x: int, y: int, dir: Dir, nextDir: Dir, step: nat, grid: array2<int>)
    reads grid
    requires Shaped(grid)
  {
    PassesCentre(x, y, dir, step)
    || (AtCentre(x, y)
        && (nextDir != NoDir || !IsWalkable(TileOf(x) + DX(dir), TileOf(y) + DY(dir), grid)))
  }

  /** The turn and stop decision at the centre of tile `t`: the queued
      direction is adopted, and the queue cleared, exactly when one is queued,
      `t` is not in the tunnel columns and the tile it leads to is walkable;
      otherwise the queue is kept and the current direction is kept if the
      tile ahead is walkable and dropped to NoDir if it is not. */
  function Decide(t: Tile, dir: Dir, nextDir: Dir, grid: array2<int>): (r: (Dir, Dir))
    reads grid
    requires Shaped(grid)
    ensures var adopt := nextDir != NoDir && 0 <= t.x < COLS
                         && IsWalkable(t.x + DX(nextDir), t.y + DY(nextDir), grid);
            && (adopt ==> r == (nextDir, NoDir))
            && (!adopt ==> r.1 == nextDir
                           && r.0 == if IsWalkable(t.x + DX(dir), t.y + DY(dir), grid) then dir else NoDir)
    ensures r.0 != NoDir ==> IsWalkable(t.x + DX(r.0), t.y + DY(r.0), grid)
    ensures r.0 == dir || r.0 == nextDir || r.0 == NoDir
  {
    var inTunnel := t.x < 0 || t.x >= COLS;
    if nextDir != NoDir && !inTunnel && IsWalkable(t.x + DX(nextDir), t.y + DY(nextDir), grid) then
      (nextDir, NoDir)
    else if IsWalkable(t.x + DX(dir), t.y + DY(dir), grid) then
      (dir, nextDir)
    else
      (NoDir, nextDir)
  }

  /** A player standing at a tile centre with nothing queued and a blocked
      way ahead stops there this frame. */
  lemma BlockedAtCentreStops(x: int, y: int, dir: Dir, step: nat, grid: array2<int>)
    requires Shaped(grid) && AtCentre(x, y)
    requires !IsWalkable(TileOf(x) + DX(dir), TileOf(y) + DY(dir), grid)
    ensures DecisionPoint(x, y, dir, NoDir, step, grid)
    ensures Decide(Tile(TileOf(x), TileOf(y)), dir, NoDir, grid) == (NoDir, NoDir)
  {
  }

  /** One step of the mouth animation, in hundredths: the opening moves by
      15 in its current sense and bounces between 0 (closed) and 100 (open). */
  function MouthStep(open: int, sense: int): (r: (int, int))
    ensures 0 <= r.0 <= 100
    ensures open + sense * 15 > 100 ==> r == (100, -1)
    ensures open + sense * 15 < 0 ==> r == (0, 1)
    ensures 0 <= open + sense * 15 <= 100 ==> r == (open + sense * 15, sense)
  {
    var o := open + sense * 15;
    if o > 100 then (100, -1)
    else if o < 0 then (0, 1)
    else (o, sense)
  }

  /** What stepping onto a cell does: the new cell and the move's report. A
      DOT is cleared and scores 10 (20 under the mushroom power) and one dot;
      a POWER cell is cleared and scores 50 and signals power only when no
      power is active, otherwise it stays; nothing else is picked up. */
  function Pickup(cell: int, mushroomPower: bool, boostTimer: int): (r: (int, MoveResult))
    ensures cell == DOT ==> r == (EMPTY, MoveResult(if mushroomPower then 2 * SCORE_CHERRY else SCORE_CHERRY, 1, false))
    ensures cell == POWER && !mushroomPower && boostTimer <= 0 ==> r == (EMPTY, MoveResult(SCORE_POWER, 0, true))
    ensures cell == POWER && (mushroomPower || boostTimer > 0) ==> r == (POWER, MoveResult(0, 0, false))
    ensures cell != DOT && cell != POWER ==> r == (cell, MoveResult(0, 0, false))
    ensures r.1.dotsEaten == 1 <==> cell == DOT
    ensures r.1.powerEaten ==> cell == POWER
    ensures r.0 == cell || r.0 == EMPTY
    ensures r.1.scoreDelta >= 0 && 0 <= r.1.dotsEaten <= 1
  {
    if cell == DOT then
      (EMPTY, MoveResult(if mushroomPower then SCORE_CHERRY * 2 else SCORE_CHERRY, 1, false))
    else if cell == POWER && !mushroomPower && boostTimer <= 0 then
      (EMPTY, MoveResult(SCORE_POWER, 0, true))
    else
      (cell, MoveResult(0, 0, false))
  }

  /** A timer counted down by `dtMs` that stops at zero once it runs out. */
  function Countdown(timer: int, dtMs: int): (t: int)
    ensures timer > 0 ==> t >= 0 && (t == 0 <==> timer - dtMs <= 0)
    ensures timer > 0 && timer - dtMs > 0 ==> t == timer - dtMs
    ensures timer <= 0 ==> t == timer
  {
    if timer > 0 then (if timer - dtMs <= 0 then 0 else timer - dtMs) else timer
  }

  /** The player's position, heading and mouth at one moment, as a value. */
  datatype PacView = PacView(x: int, y: int, dir: Dir, nextDir: Dir, mouthOpen: int, mouthDir: int)

  /** One frame of `move` takes the player from `a` to `b` and the map from
      `before` to `after`, reporting `r`. The caller supplies what the map
      said before the frame: whether the frame is a decision point
      (`decides`) and, if so, the turn and stop decision (`decision`). A
      player stopped with nothing queued changes nothing and reports
      nothing; otherwise it moves `step` pixels (from the tile centre at a
      decision point) and wraps, the mouth advances, and the cell it lands
      on is the only one `Pickup` may rewrite. */
  predicate Moved(a: PacView, b: PacView, r: MoveResult, step: nat, decides: bool, decision: (Dir, Dir),
                  mushroomPower: bool, boostTimer: int, before: Cells, after: Cells)
  {
    && WellFormed(before) && WellFormed(after)
    && if a.dir == NoDir && a.nextDir == NoDir then
         b == a && r == MoveResult(0, 0, false) && after == before
       else
         && Travelled(a, b, step, decides, decision)
         && (b.mouthOpen, b.mouthDir) == MouthStep(a.mouthOpen, a.mouthDir)
         && PickedUp(Tile(TileOf(b.x), TileOf(b.y)), r, mushroomPower, boostTimer, before, after)
  }

  /** A moving frame is `Moved` once its movement, its mouth step and its
      pickup are each established. */
  lemma MovedOfParts(a: PacView, b: PacView, r: MoveResult, step: nat, decides: bool, decision: (Dir, Dir),
                     mushroomPower: bool, boostTimer: int, before: Cells, after: Cells)
    requires WellFormed(before) && WellFormed(after)
    requires !(a.dir == NoDir && a.nextDir == NoDir)
    requires Travelled(a, b, step, decides, decision)
    requires (b.mouthOpen, b.mouthDir) == MouthStep(a.mouthOpen, a.mouthDir)
    requires PickedUp(Tile(TileOf(b.x), TileOf(b.y)), r, mushroomPower, boostTimer, before, after)
    ensures Moved(a, b, r, step, decides, decision, mushroomPower, boostTimer, before, after)
  {
  }

  /** The movement part of a frame: at a decision point the player takes
      `decision` and moves from the centre of its tile, otherwise it keeps
      its heading and queue and moves from where it is; either way it then
      wraps. */
  predicate Travelled(a: PacView, b: PacView, step: nat, decides: bool, decision: (Dir, Dir))
  {
    var t := Tile(TileOf(a.x), TileOf(a.y));
    && (decides ==>
          && (b.dir, b.nextDir) == decision
          && b.x == Wrapped(Centre(t.x) + StepX(b.dir, step))
          && b.y == Centre(t.y) + StepY(b.dir, step))
    && (!decides ==>
          && b.dir == a.dir && b.nextDir == a.nextDir
          && b.x == Wrapped(a.x + StepX(b.dir, step))
          && b.y == a.y + StepY(b.dir, step))
  }

  /** Movement is untouched by what changes only the mouth. */
  lemma TravelledKeeps(a: PacView, m: PacView, b: PacView, step: nat, decides: bool, decision: (Dir, Dir))
    requires Travelled(a, m, step, decides, decision)
    requires b.x == m.x && b.y == m.y && b.dir == m.dir && b.nextDir == m.nextDir
    ensures Travelled(a, b, step, decides, decision)
  {
  }

  /** The pickup part of a frame, on landing tile `nt`: inside the grid the
      cell and the report are what `Pickup` makes of the old cell and no
      other cell changes; outside it nothing changes and nothing is
      reported. */
  predicate PickedUp(nt: Tile, r: MoveResult, mushroomPower: bool, boostTimer: int, before: Cells, after: Cells)
    requires WellFormed(before) && WellFormed(after)
  {
    && (InGrid(nt) ==>
          && (after[nt.y][nt.x], r) == Pickup(before[nt.y][nt.x], mushroomPower, boostTimer)
          && after == before[nt.y := before[nt.y][nt.x := after[nt.y][nt.x]]])
    && (!InGrid(nt) ==> r == MoveResult(0, 0, false) && after == before)
  }

  class PacMan {
    var x: int
    var y: int
    var dir: Dir
    var nextDir: Dir
    /** Mouth opening in hundredths, 0 closed to 100 open. */
    var mouthOpen: int
    /** Sense of the mouth animation: 1 opening, -1 closing. */
    var mouthDir: int
    var speedBoostTimer: int
    var mushroomPowerTimer: int
    var mushroomPower: bool

    ghost predicate Valid()
      reads this
    {
      0 <= mouthOpen <= 100 && speedBoostTimer >= 0 && mushroomPowerTimer >= 0
    }

    /** At the centre of the start tile, stopped, mouth closed, no power. */
    predicate AtStart()
      reads this
    {
      && x == Centre(PACMAN_START.x) && y == Centre(PACMAN_START.y)
      && dir == NoDir && nextDir == NoDir && mouthOpen == 0 && mouthDir == 1
      && speedBoostTimer == 0 && mushroomPowerTimer == 0 && !mushroomPower
    }

    /** A player at the centre of the start tile, stopped, with no power. */
    constructor ()
      ensures Valid() && AtStart()
      ensures x == Centre(PACMAN_START.x) && y == Centre(PACMAN_START.y)
      ensures dir == NoDir && nextDir == NoDir
      ensures mouthOpen == 0 && mouthDir == 1
      ensures speedBoostTimer == 0 && mushroomPowerTimer == 0 && !mushroomPower
    {
      x := Centre(PACMAN_START.x);
      y := Centre(PACMAN_START.y);
      dir := NoDir;
      nextDir := NoDir;
      mouthOpen := 0;
      mouthDir := 1;
      speedBoostTimer := 0;
      mushroomPowerTimer := 0;
      mushroomPower := false;
    }

    /** Back to the start tile, stopped, mushroom power cleared; the speed
        boost timer is left as it is. */
    method Reset()
      modifies this
      ensures x == Centre(PACMAN_START.x) && y == Centre(PACMAN_START.y)
      ensures dir == NoDir && nextDir == NoDir
      ensures mouthOpen == 0 && mouthDir == 1
      ensures mushroomPowerTimer == 0 && !mushroomPower
      ensures speedBoostTimer == old(speedBoostTimer)
    {
      x := Centre(PACMAN_START.x);
      y := Centre(PACMAN_START.y);
      dir := NoDir;
      nextDir := NoDir;
      mouthOpen := 0;
      mouthDir := 1;
      mushroomPowerTimer := 0;
      mushroomPower := false;
    }

    /** The player's position, heading and mouth as a value. */
    function View(): PacView
      reads this
    {
      PacView(x, y, dir, nextDir, mouthOpen, mouthDir)
    }

    /** The tile the player is on. */
    function GetTile(): (t: Tile)
      reads this
      ensures t.x * TILE <= x < t.x * TILE + TILE
      ensures t.y * TILE <= y < t.y * TILE + TILE
    {
      Tile(TileOf(x), TileOf(y))
    }

    /** One frame of movement and pickup. */
    method Move(strides: PacStrides, grid: array2<int>) returns (r: MoveResult)
      requires Shaped(grid)
      modifies this`x, this`y, this`dir, this`nextDir, this`mouthOpen, this`mouthDir, grid
      // A stopped player with nothing queued does nothing at all.
      ensures old(dir) == NoDir && old(nextDir) == NoDir ==>
                r == MoveResult(0, 0, false) && unchanged(this) && unchanged(grid)
      // Direction, queue and position.
      ensures !(old(dir) == NoDir && old(nextDir) == NoDir) ==>
                var step := Stride(strides, old(mushroomPowerTimer), old(speedBoostTimer));
                var t := Tile(TileOf(old(x)), TileOf(old(y)));
                if old(DecisionPoint(x, y, dir, nextDir, step, grid)) then
                  && (dir, nextDir) == old(Decide(t, dir, nextDir, grid))
                  && x == Wrapped(Centre(t.x) + StepX(dir, step))
                  && y == Centre(t.y) + StepY(dir, step)
                else
                  && dir == old(dir) && nextDir == old(nextDir)
                  && x == Wrapped(old(x) + StepX(dir, step))
                  && y == old(y) + StepY(dir, step)
      // Mouth animation; the timers are untouched.
      ensures !(old(dir) == NoDir && old(nextDir) == NoDir) ==>
                (mouthOpen, mouthDir) == MouthStep(old(mouthOpen), old(mouthDir))
      ensures speedBoostTimer == old(speedBoostTimer) && mushroomPowerTimer == old(mushroomPowerTimer)
      ensures mushroomPower == old(mushroomPower)
      ensures old(Valid()) ==> Valid()
      // Pickup on the new tile: at most that one cell changes, and only to EMPTY.
      ensures !(old(dir) == NoDir && old(nextDir) == NoDir) ==>
              var nt := GetTile();
              && (InGrid(nt) ==> (grid[nt.y, nt.x], r) == Pickup(old(grid[nt.y, nt.x]), mushroomPower, speedBoostTimer))
              && (!InGrid(nt) ==> r == MoveResult(0, 0, false))
              && (forall i, j :: 0 <= i < ROWS && 0 <= j < COLS && (i, j) != (nt.y, nt.x) ==> grid[i, j] == old(grid[i, j]))
      // The same frame as a relation between values.
      ensures var step := Stride(strides, mushroomPowerTimer, speedBoostTimer);
              Moved(old(View()), View(), r, step,
                    old(DecisionPoint(x, y, dir, nextDir, step, grid)),
                    old(Decide(Tile(TileOf(x), TileOf(y)), dir, nextDir, grid)),
                    mushroomPower, speedBoostTimer, old(Snapshot(grid)), Snapshot(grid))
      // The DOT count of the map drops by exactly the dots reported.
      ensures Count(Snapshot(grid), DOT) == old(Count(Snapshot(grid), DOT)) - r.dotsEaten
      ensures r.scoreDelta >= 0 && 0 <= r.dotsEaten <= 1
    {
      if dir == NoDir && nextDir == NoDir {
        return MoveResult(0, 0, false);
      }
      ghost var a := View();
      ghost var before := Snapshot(grid);
      ghost var step := Stride(strides, mushroomPowerTimer, speedBoostTimer);
      ghost var decides := DecisionPoint(x, y, dir, nextDir, step, grid);
      ghost var decision := Decide(Tile(TileOf(x), TileOf(y)), dir, nextDir, grid);
      r := Advance(strides, grid);
      MovedOfParts(a, View(), r, step, decides, decision, mushroomPower, speedBoostTimer, before, Snapshot(grid));
    }

    /** One frame of a player that is moving or has a turn queued: travel,
        animate the mouth, then pick up on the tile reached. */
    method Advance(strides: PacStrides, grid: array2<int>) returns (r: MoveResult)
      requires Shaped(grid)
      modifies this`x, this`y, this`dir, this`nextDir, this`mouthOpen, this`mouthDir, grid
      ensures var step := Stride(strides, old(mushroomPowerTimer), old(speedBoostTimer));
              var t := Tile(TileOf(old(x)), TileOf(old(y)));
              if old(DecisionPoint(x, y, dir, nextDir, step, grid)) then
                && (dir, nextDir) == old(Decide(t, dir, nextDir, grid))
                && x == Wrapped(Centre(t.x) + StepX(dir, step))
                && y == Centre(t.y) + StepY(dir, step)
              else
                && dir == old(dir) && nextDir == old(nextDir)
                && x == Wrapped(old(x) + StepX(dir, step))
                && y == old(y) + StepY(dir, step)
      ensures (mouthOpen, mouthDir) == MouthStep(old(mouthOpen), old(mouthDir))
      ensures var nt := GetTile();
              && (InGrid(nt) ==> (grid[nt.y, nt.x], r) == Pickup(old(grid[nt.y, nt.x]), mushroomPower, speedBoostTimer))
              && (!InGrid(nt) ==> r == MoveResult(0, 0, false))
              && (forall i, j :: 0 <= i < ROWS && 0 <= j < COLS && (i, j) != (nt.y, nt.x) ==> grid[i, j] == old(grid[i, j]))
      ensures Count(Snapshot(grid), DOT) == old(Count(Snapshot(grid), DOT)) - r.dotsEaten
      ensures r.scoreDelta >= 0 && 0 <= r.dotsEaten <= 1
      ensures var step := Stride(strides, mushroomPowerTimer, speedBoostTimer);
              Travelled(old(View()), View(), step, old(DecisionPoint(x, y, dir, nextDir, step, grid)),
                        old(Decide(Tile(TileOf(x), TileOf(y)), dir, nextDir, grid)))
      ensures PickedUp(GetTile(), r, mushroomPower, speedBoostTimer, old(Snapshot(grid)), Snapshot(grid))
    {
      var step := Stride(strides, mushroomPowerTimer, speedBoostTimer);
      Glide(step, grid);
      ghost var b := View();
      r := Collect(grid);
      assert View() == b;
      assert Stride(strides, mushroomPowerTimer, speedBoostTimer) == step;
    }

    /** The movement and the mouth step of a moving frame; the map is only
        read. */
    method Glide(step: nat, grid: array2<int>)
      requires Shaped(grid)
      modifies this`x, this`y, this`dir, this`nextDir, this`mouthOpen, this`mouthDir
      ensures var t := Tile(TileOf(old(x)), TileOf(old(y)));
              if old(DecisionPoint(x, y, dir, nextDir, step, grid)) then
                && (dir, nextDir) == Decide(t, old(dir), old(nextDir), grid)
                && x == Wrapped(Centre(t.x) + StepX(dir, step))
                && y == Centre(t.y) + StepY(dir, step)
              else
                && dir == old(dir) && nextDir == old(nextDir)
                && x == Wrapped(old(x) + StepX(dir, step))
                && y == old(y) + StepY(dir, step)
      ensures Travelled(old(View()), View(), step, old(DecisionPoint(x, y, dir, nextDir, step, grid)),
                        old(Decide(Tile(TileOf(x), TileOf(y)), dir, nextDir, grid)))
      ensures (mouthOpen, mouthDir) == MouthStep(old(mouthOpen), old(mouthDir))
    {
      ghost var a := View();
      ghost var decides := DecisionPoint(x, y, dir, nextDir, step, grid);
      ghost var decision := Decide(Tile(TileOf(x), TileOf(y)), dir, nextDir, grid);
      Travel(step, grid);
      ghost var m := View();
      AnimateMouth();
      TravelledKeeps(a, m, View(), step, decides, decision);
    }

    /** The direction decision and the displacement of one frame, then the
        tunnel wrap. */
    method Travel(step: nat, grid: array2<int>)
      requires Shaped(grid)
      modifies this`x, this`y, this`dir, this`nextDir
      ensures Travelled(old(View()), View(), step, old(DecisionPoint(x, y, dir, nextDir, step, grid)),
                        old(Decide(Tile(TileOf(x), TileOf(y)), dir, nextDir, grid)))
      ensures var t := Tile(TileOf(old(x)), TileOf(old(y)));
              if old(DecisionPoint(x, y, dir, nextDir, step, grid)) then
                && (dir, nextDir) == Decide(t, old(dir), old(nextDir), grid)
                && x == Wrapped(Centre(t.x) + StepX(dir, step))
                && y == Centre(t.y) + StepY(dir, step)
              else
                && dir == old(dir) && nextDir == old(nextDir)
                && x == Wrapped(old(x) + StepX(dir, step))
                && y == old(y) + StepY(dir, step)
    {
      Steer(step, grid);
      x := Wrapped(x);
    }

    /** The direction decision and the displacement of one frame, before the
        tunnel wrap. */
    method Steer(step: nat, grid: array2<int>)
      requires Shaped(grid)
      modifies this`x, this`y, this`dir, this`nextDir
      ensures var t := Tile(TileOf(old(x)), TileOf(old(y)));
              if old(DecisionPoint(x, y, dir, nextDir, step, grid)) then
                && (dir, nextDir) == Decide(t, old(dir), old(nextDir), grid)
                && x == Centre(t.x) + StepX(dir, step)
                && y == Centre(t.y) + StepY(dir, step)
              else
                && dir == old(dir) && nextDir == old(nextDir)
                && x == old(x) + StepX(dir, step)
                && y == old(y) + StepY(dir, step)
    {
      var moveX := StepX(dir, step);
      var moveY := StepY(dir, step);
      var tile := Tile(TileOf(x), TileOf(y));
      var passedCenter := ReachesDecision(step, grid);
      if passedCenter {
        x := Centre(tile.x);
        y := Centre(tile.y);
        TurnAt(Tile(TileOf(x), TileOf(y)), grid);
        if dir != NoDir {
          x := x + StepX(dir, step);
          y := y + StepY(dir, step);
        }
      } else {
        x := x + moveX;
        y := y + moveY;
      }
    }

    /** Whether this frame's move reaches a point where the player decides:
        it would cross or land on the tile centre along its direction, or it
        stands at the centre with a turn queued or a wall ahead. */
    method ReachesDecision(step: nat, grid: array2<int>) returns (passedCenter: bool)
      requires Shaped(grid)
      ensures passedCenter == DecisionPoint(x, y, dir, nextDir, step, grid)
    {
      var moveX := StepX(dir, step);
      var moveY := StepY(dir, step);
      var tile := Tile(TileOf(x), TileOf(y));
      var centerX := Centre(tile.x);
      var centerY := Centre(tile.y);
      passedCenter := false;
      if DX(dir) > 0 && x < centerX && x + moveX >= centerX {
        passedCenter := true;
      } else if DX(dir) < 0 && x > centerX && x + moveX <= centerX {
        passedCenter := true;
      } else if DY(dir) > 0 && y < centerY && y + moveY >= centerY {
        passedCenter := true;
      } else if DY(dir) < 0 && y > centerY && y + moveY <= centerY {
        passedCenter := true;
      }
      if !passedCenter && AtCentre(x, y) {
        var ftx := tile.x + DX(dir);
        var fty := tile.y + DY(dir);
        if nextDir != NoDir || !IsWalkable(ftx, fty, grid) {
          passedCenter := true;
        }
      }
    }

    /** At the centre of tile `t`: take the queued turn when it is open and
        `t` is not in the tunnel, otherwise keep going if the way ahead is
        open and stop if it is not. */
    method TurnAt(t: Tile, grid: array2<int>)
      requires Shaped(grid)
      modifies this`dir, this`nextDir
      ensures (dir, nextDir) == Decide(t, old(dir), old(nextDir), grid)
    {
      var inTunnel := t.x < 0 || t.x >= COLS;
      var turned := false;
      if nextDir != NoDir && !inTunnel {
        if IsWalkable(t.x + DX(nextDir), t.y + DY(nextDir), grid) {
          dir := nextDir;
          nextDir := NoDir;
          turned := true;
        }
      }
      if !turned {
        if !IsWalkable(t.x + DX(dir), t.y + DY(dir), grid) {
          dir := NoDir;
        }
      }
    }

    /** Advances the mouth animation by one step. */
    method AnimateMouth()
      modifies this`mouthOpen, this`mouthDir
      ensures (mouthOpen, mouthDir) == MouthStep(old(mouthOpen), old(mouthDir))
    {
      mouthOpen := mouthOpen + mouthDir * 15;
      if mouthOpen > 100 {
        mouthOpen := 100;
        mouthDir := -1;
      }
      if mouthOpen < 0 {
        mouthOpen := 0;
        mouthDir := 1;
      }
    }

    /** Picks up the item on the current tile, rewriting that one cell. */
    method Collect(grid: array2<int>) returns (r: MoveResult)
      requires Shaped(grid)
      modifies grid
      ensures var nt := GetTile();
              && (InGrid(nt) ==> (grid[nt.y, nt.x], r) == Pickup(old(grid[nt.y, nt.x]), mushroomPower, speedBoostTimer))
              && (!InGrid(nt) ==> r == MoveResult(0, 0, false))
              && (forall i, j :: 0 <= i < ROWS && 0 <= j < COLS && (i, j) != (nt.y, nt.x) ==> grid[i, j] == old(grid[i, j]))
      ensures var nt := GetTile();
              var before := old(Snapshot(grid));
              && (InGrid(nt) ==> Snapshot(grid) == before[nt.y := before[nt.y][nt.x := grid[nt.y, nt.x]]])
              && (!InGrid(nt) ==> Snapshot(grid) == before)
      ensures Count(Snapshot(grid), DOT) == old(Count(Snapshot(grid), DOT)) - r.dotsEaten
      ensures r.scoreDelta >= 0 && 0 <= r.dotsEaten <= 1
      ensures PickedUp(GetTile(), r, mushroomPower, speedBoostTimer, old(Snapshot(grid)), Snapshot(grid))
    {
      r := MoveResult(0, 0, false);
      var nt := Tile(TileOf(x), TileOf(y));
      ghost var before := Snapshot(grid);
      if InGrid(nt) {
        var cell := grid[nt.y, nt.x];
        if cell == DOT {
          grid[nt.y, nt.x] := EMPTY;
          r := MoveResult(if mushroomPower then SCORE_CHERRY * 2 else SCORE_CHERRY, 1, false);
        } else if cell == POWER {
          if !mushroomPower && speedBoostTimer <= 0 {
            grid[nt.y, nt.x] := EMPTY;
            r := MoveResult(SCORE_POWER, 0, true);
          }
        }
        if grid[nt.y, nt.x] != cell {
          SnapshotAfterWrite(grid, before, nt.y, nt.x, EMPTY);
          CountUpdate(before, nt.y, nt.x, EMPTY, DOT);
        } else {
          SnapshotSame(grid, before);
          assert before[nt.y][nt.x] == cell;
          assert before[nt.y][nt.x := cell] == before[nt.y];
          assert before[nt.y := before[nt.y][nt.x := cell]] == before;
        }
      }
    }

    /** Counts the speed boost down by `dtMs`, stopping at zero. */
    method UpdateBoost(dtMs: int)
      modifies this`speedBoostTimer
      ensures speedBoostTimer == Countdown(old(speedBoostTimer), dtMs)
      ensures old(speedBoostTimer) >= 0 ==> speedBoostTimer >= 0
    {
      if speedBoostTimer > 0 {
        speedBoostTimer := speedBoostTimer - dtMs;
        if speedBoostTimer <= 0 {
          speedBoostTimer := 0;
        }
      }
    }

    /** Counts the mushroom power down by `dtMs`; when it runs out the power
        flag is cleared. */
    method UpdateMushroomPower(dtMs: int)
      modifies this`mushroomPowerTimer, this`mushroomPower
      ensures mushroomPowerTimer == Countdown(old(mushroomPowerTimer), dtMs)
      ensures old(mushroomPowerTimer) >= 0 ==> mushroomPowerTimer >= 0
      ensures mushroomPower == (old(mushroomPower) && !(old(mushroomPowerTimer) > 0 && mushroomPowerTimer == 0))
    {
      if mushroomPowerTimer > 0 {
        mushroomPowerTimer := mushroomPowerTimer - dtMs;
        if mushroomPowerTimer <= 0 {
          mushroomPowerTimer := 0;
          mushroomPower := false;
        }
      }
    }
  }
}

=== FILE: rankings.dfy ===
/** The global high-score ranking kept in the "ranking" collection of the
    "pacman" database, as served by the Express router: validation of a
    submission, normalisation of the player's name, the upsert that keeps
    the best score and the best level per name, and the top-ten listing.
    The collection is a map from normalised name to record. */
module Rankings {

  /** A field of a JSON request body; `Undefined` is a field that is absent.
      Numbers are integers. */
  datatype Value = Undefined | Null | Bool(b: bool) | Num(n: int) | Str(s: string)

  /** JavaScript truthiness of a field. */
  predicate Truthy(v: Value)
  {
    match v
    case Undefined => false
    case Null => false
    case Bool(b) => b
    case Num(n) => n != 0
    case Str(s) => s != ""
  }

  /** A number as `Number(...)` produces it and as the collection stores
      it: not-a-number, or an integer. */
  datatype Number = NaN | Int(i: int)

  /** The database's order on stored numbers: NaN sorts below every
      integer, integers by value. */
  predicate NumLe(a: Number, b: Number)
  {
    a.NaN? || (b.Int? && a.i <= b.i)
  }

  /** The larger of two stored numbers, as the `$max` update operator
      keeps it. */
  function MaxNum(a: Number, b: Number): (m: Number)
    ensures m == a || m == b
    ensures NumLe(a, m) && NumLe(b, m)
  {
    if NumLe(a, b) then b else a
  }

  /** `$max` is order-independent: the larger of three numbers does not
      depend on the order they arrive in. */
  lemma MaxNumSwap(a: Number, b: Number, c: Number)
    ensures MaxNum(MaxNum(a, b), c) == MaxNum(MaxNum(a, c), b)
    ensures MaxNum(b, c) == MaxNum(c, b)
  {
  }

  // ---------------------------------------------------------------------
  // Name normalisation: trim, then upper-case.

  /** The characters `String.prototype.trim` removes: the white-space and
      line-terminator characters of ECMAScript. */
  predicate IsSpace(c: char)
  {
    || c == '\t' || c == '\n' || c == '\U{B}' || c == '\U{C}' || c == '\r'
    || c == ' ' || c == '\U{A0}' || c == '\U{1680}'
    || ('\U{2000}' <= c <= '\U{200A}')
    || c == '\U{2028}' || c == '\U{2029}' || c == '\U{202F}' || c == '\U{205F}'
    || c == '\U{3000}' || c == '\U{FEFF}'
  }

  /** Every character of `s` is white space. */
  predicate AllSpace(s: string)
  {
    forall k :: 0 <= k < |s| ==> IsSpace(s[k])
  }

  /** Neither end of `s` is white space. */
  predicate Tight(s: string)
  {
    s == [] || (!IsSpace(s[0]) && !IsSpace(s[|s| - 1]))
  }

  /** `s` without its leading white space. */
  function TrimStart(s: string): (r: string)
    ensures |r| <= |s| && r == s[|s| - |r|..]
    ensures AllSpace(s[..|s| - |r|])
    ensures r != [] ==> !IsSpace(r[0])
  {
    if s != [] && IsSpace(s[0]) then TrimStart(s[1..]) else s
  }

  /** `s` without its trailing white space. */
  function TrimEnd(s: string): (r: string)
    ensures |r| <= |s| && r == s[..|r|]
    ensures AllSpace(s[|r|..])
    ensures r != [] ==> !IsSpace(r[|r| - 1])
  {
    if s != [] && IsSpace(s[|s| - 1]) then TrimEnd(s[..|s| - 1]) else s
  }

  /** `r` is the slice of `s` starting at `i`, and everything of `s` around
      it is white space. */
  predicate Cut(s: string, i: int, r: string)
  {
    0 <= i && i + |r| <= |s| && r == s[i..i + |r|]
    && AllSpace(s[..i]) && AllSpace(s[i + |r|..])
  }

  /** Cutting trailing space off a suffix left by cutting leading space. */
  lemma CutTwice(s: string, t: string, r: string)
    requires |t| <= |s| && t == s[|s| - |t|..] && AllSpace(s[..|s| - |t|])
    requires |r| <= |t| && r == t[..|r|] && AllSpace(t[|r|..])
    ensures Cut(s, |s| - |t|, r)
  {
    var i := |s| - |t|;
    assert r == s[i..i + |r|];
    assert t[|r|..] == s[i + |r|..];
  }

  /** `s.trim()`: the middle part of `s` left once the white space at both
      ends is cut off. */
  function Trim(s: string): (r: string)
    ensures Tight(r)
    ensures Cut(s, |s| - |TrimStart(s)|, r)
  {
    var t := TrimStart(s);
    var r := TrimEnd(t);
    CutTwice(s, t, r);
    assert r != [] ==> r[0] == t[0];
    r
  }

  /** Trimming a string whose ends are not white space leaves it as it is. */
  lemma TrimTight(s: string)
    requires Tight(s)
    ensures Trim(s) == s
  {
    assert TrimStart(s) == s;
    assert TrimEnd(s) == s;
  }

  /** `c.toUpperCase()` on the ASCII letters. */
  function UpperChar(c: char): (u: char)
    ensures IsSpace(u) == IsSpace(c)
    ensures !('a' <= u <= 'z')
    ensures u == c || 'a' <= c <= 'z'
  {
    if 'a' <= c <= 'z' then (c as int - 32) as char else c
  }

  /** No ASCII lower-case letter occurs in `s`. */
  predicate NoLower(s: string)
  {
    forall k :: 0 <= k < |s| ==> !('a' <= s[k] <= 'z')
  }

  /** `s.toUpperCase()`, character by character. */
  function Upper(s: string): (r: string)
    ensures |r| == |s|
    ensures forall k :: 0 <= k < |s| ==> r[k] == UpperChar(s[k])
  {
    if s == [] then [] else [UpperChar(s[0])] + Upper(s[1..])
  }

  /** The key a player's name is stored under: `name.trim().toUpperCase()`.
      It is no longer than the name, has no white space at either end and no
      lower-case letter. */
  function Normalise(name: string): (key: string)
    ensures |key| <= |name|
    ensures Tight(key) && NoLower(key)
    ensures |key| == |Trim(name)| && forall i :: 0 <= i < |key| ==> key[i] == UpperChar(Trim(name)[i])
  {
    Upper(Trim(name))
  }

  /** Characters `c` and `d` are the same up to ASCII case. */
  predicate SameLetter(c: char, d: char)
  {
    c == d
    || ('a' <= c <= 'z' && d as int == c as int - 32)
    || ('a' <= d <= 'z' && c as int == d as int - 32)
  }

  /** Strings `s` and `t` are the same up to ASCII case. */
  predicate CaseEqual(s: string, t: string)
  {
    |s| == |t| && forall i :: 0 <= i < |s| ==> SameLetter(s[i], t[i])
  }

  /** Two characters upper-case alike exactly when they are the same letter
      up to case. */
  lemma UpperCharAlike(c: char, d: char)
    ensures UpperChar(c) == UpperChar(d) <==> SameLetter(c, d)
  {
  }

  /** Two names are filed under the same key exactly when their trimmed
      texts are the same up to ASCII case. */
  lemma {:induction false} SameKeyIffCaseEqual(a: string, b: string)
    ensures Normalise(a) == Normalise(b) <==> CaseEqual(Trim(a), Trim(b))
  {
    var ka, kb := Normalise(a), Normalise(b);
    var ta, tb := Trim(a), Trim(b);
    if ka == kb {
      forall i | 0 <= i < |ta|
        ensures SameLetter(ta[i], tb[i])
      {
        assert ka[i] == kb[i];
        UpperCharAlike(ta[i], tb[i]);
      }
    }
    if CaseEqual(ta, tb) {
      forall i | 0 <= i < |ka|
        ensures ka[i] == kb[i]
      {
        UpperCharAlike(ta[i], tb[i]);
      }
    }
  }

  /** Normalising a key again changes nothing. */
  lemma {:induction false} NormaliseIdempotent(name: string)
    ensures Normalise(Normalise(name)) == Normalise(name)
  {
    var key := Normalise(name);
    TrimTight(key);
    assert Upper(key) == key;
  }

  // ---------------------------------------------------------------------
  // Number(...) on a field.

  predicate IsDigit(c: char)
  {
    '0' <= c <= '9'
  }

  predicate AllDigits(s: string)
  {
    forall k :: 0 <= k < |s| ==> IsDigit(s[k])
  }

  /** The value of a string of decimal digits. */
  function DigitsValue(s: string): nat
    requires AllDigits(s)
  {
    if s == [] then 0
    else 10 * DigitsValue(s[..|s| - 1]) + (s[|s| - 1] as int - '0' as int)
  }

  /** `Number(s)` for a string: white space around it is ignored, the empty
      string is 0, an optionally signed run of decimal digits is its value,
      and anything else is NaN. */
  function ParseNumber(s: string): Number
  {
    var t := Trim(s);
    if t == [] then Int(0)
    else if AllDigits(t) then Int(DigitsValue(t))
    else if |t| >= 2 && t[0] == '-' && AllDigits(t[1..]) then Int(-(DigitsValue(t[1..]) as int))
    else if |t| >= 2 && t[0] == '+' && AllDigits(t[1..]) then Int(DigitsValue(t[1..]))
    else NaN
  }

  /** `Number(v)`: undefined is NaN, null and false are 0, true is 1. */
  function ToNumber(v: Value): Number
  {
    match v
    case Undefined => NaN
    case Null => Int(0)
    case Bool(b) => Int(if b then 1 else 0)
    case Num(n) => Int(n)
    case Str(s) => ParseNumber(s)
  }

  /** The decimal digits of `n`, most significant first. */
  function Digits(n: nat): (s: string)
    ensures s != [] && AllDigits(s)
  {
    var d := ['0' + (n % 10) as char];
    if n < 10 then d else Digits(n / 10) + d
  }

  /** The decimal text of `n`, with a minus sign when negative. */
  function Show(n: int): string
  {
    if n < 0 then "-" + Digits(-n) else Digits(n)
  }

  /** Reading back the digits of `n` gives `n`. */
  lemma {:induction false} DigitsValueOfDigits(n: nat)
    ensures DigitsValue(Digits(n)) == n
    decreases n
  {
    var s := Digits(n);
    if n >= 10 {
      DigitsValueOfDigits(n / 10);
      assert s[..|s| - 1] == Digits(n / 10);
    }
  }

  /** A score sent as its decimal text is stored as the same number. */
  lemma {:induction false} ParseShowRoundTrip(n: int)
    ensures ParseNumber(Show(n)) == Int(n)
    ensures ToNumber(Str(Show(n))) == ToNumber(Num(n))
  {
    var s := Show(n);
    var m := if n < 0 then -n else n;
    var ds := Digits(m);
    TrimTight(s);
    if n < 0 {
      assert s[1..] == ds;
      assert !IsDigit(s[0]);
      DigitsValueOfDigits(m);
    } else {
      DigitsValueOfDigits(m);
    }
  }

  // ---------------------------------------------------------------------
  // The collection and its upsert.

  /** A stored ranking entry. */
  datatype Record = Record(name: string, score: Number, level: Number, date: string)

  /** The collection after `updateOne({name: key}, {$max: {score, level},
      $set: {date}, $setOnInsert: {name: key}}, {upsert: true})`. */
  function Upserted(m: map<string, Record>, key: string, score: Number, level: Number, date: string): (m': map<string, Record>)
    ensures m'.Keys == m.Keys + {key}
    ensures forall k :: k in m && k != key ==> m'[k] == m[k]
    ensures m'[key].date == date
    ensures key in m ==>
              m'[key].name == m[key].name
              && m'[key].score == MaxNum(m[key].score, score)
              && m'[key].level == MaxNum(m[key].level, level)
    ensures key !in m ==> m'[key] == Record(key, score, level, date)
  {
    if key in m then
      m[key := m[key].(score := MaxNum(m[key].score, score),
                       level := MaxNum(m[key].level, level),
                       date := date)]
    else
      m[key := Record(key, score, level, date)]
  }

  /** The stored score and level never go down, and each ends at least as
      high as the submitted one. */
  lemma UpsertMonotone(m: map<string, Record>, key: string, score: Number, level: Number, date: string)
    requires key in m
    ensures var r := Upserted(m, key, score, level, date)[key];
            NumLe(m[key].score, r.score) && NumLe(score, r.score)
            && NumLe(m[key].level, r.level) && NumLe(level, r.level)
  {
  }

  /** Submitting the same thing twice leaves the collection as once. */
  lemma UpsertIdempotent(m: map<string, Record>, key: string, score: Number, level: Number, date: string)
    ensures var once := Upserted(m, key, score, level, date);
            Upserted(once, key, score, level, date) == once
  {
    var once := Upserted(m, key, score, level, date);
    var twice := Upserted(once, key, score, level, date);
    assert twice[key] == once[key];
  }

  /** Two submissions under one key leave the same best score and best level
      whatever their order; only the date is that of the later one. */
  lemma {:induction false} UpsertOrderIndependent(m: map<string, Record>, key: string,
                                                  s1: Number, l1: Number, d1: string,
                                                  s2: Number, l2: Number, d2: string)
    ensures var a := Upserted(Upserted(m, key, s1, l1, d1), key, s2, l2, d2);
            var b := Upserted(Upserted(m, key, s2, l2, d2), key, s1, l1, d1);
            && a.Keys == b.Keys
            && a[key].score == b[key].score && a[key].level == b[key].level
            && a[key].date == d2 && b[key].date == d1
  {
    if key in m {
      MaxNumSwap(m[key].score, s1, s2);
      MaxNumSwap(m[key].level, l1, l2);
    } else {
      MaxNumSwap(s1, s2, s2);
      MaxNumSwap(l1, l2, l2);
    }
  }

  /** Submitting ("AA", 100, 2) and then ("aa", 50, 5) to an empty
      collection leaves exactly one entry, "AA", with score 100 and level 5:
      each field keeps its own maximum. */
  lemma {:induction false} CaseInsensitiveScenario(d1: string, d2: string)
    ensures var m := Upserted(Upserted(map[], Normalise("AA"), Int(100), Int(2), d1),
                              Normalise("aa"), Int(50), Int(5), d2);
            m.Keys == {"AA"} && m["AA"] == Record("AA", Int(100), Int(5), d2)
  {
    TrimTight("AA");
    TrimTight("aa");
    assert Upper("AA") == "AA";
    assert Upper("aa") == "AA";
  }

  // ---------------------------------------------------------------------
  // Requests and responses.

  /** The fields of a submitted body. */
  datatype Submission = Submission(name: Value, score: Value, level: Value)

  /** The state of the database when a request arrives: the connection
      string may be missing, the server unreachable, or the connection made
      but the query or update sent over it failing with an error. */
  datatype Db = Connected | NoUri | Unreachable(reason: string) | QueryFails(error: string)

  /** The connection helper hands back the collection; whether the
      operation then sent to it succeeds is a separate matter. */
  predicate Connects(db: Db)
  {
    db.Connected? || db.QueryFails?
  }

  /** Response bodies. */
  datatype Body =
    | Success                             // { success: true }
    | Failure(error: string)              // { error }
    | Listing(records: seq<Record>)       // the top entries
    | Diagnostic                          // connection report
    | TestFailure(error: string)          // { status: "error", error }
    | NotFound(path: string)              // { error: "Endpoint not found", path }
    | Crash(details: string)              // { error: "Internal Server Error", details }

  /** A response: status code, whether it allows any origin, and body. */
  datatype Response = Response(status: int, cors: bool, body: Body)

  const REQUIRED: string := "name, score, and level are required"
  const NOT_A_STRING: string := "data.name.trim is not a function"

  /** The error the router's connection helper raises. */
  function DbError(db: Db): string
    requires !Connects(db)
  {
    if db.NoUri? then "Configuração ausente: MONGODB_URI não encontrada no ambiente."
    else "Erro de Conexão: Não foi possível conectar ao banco de dados MongoDB."
  }

  /** The router refuses a submission whose name is falsy or whose score or
      level is null or absent. */
  predicate RouterRejects(sub: Submission)
  {
    !Truthy(sub.name)
    || sub.score.Undefined? || sub.score.Null?
    || sub.level.Undefined? || sub.level.Null?
  }

  /** A collection in which every entry is filed under its own, already
      normalised, name. */
  class RankingStore {
    var records: map<string, Record>

    ghost predicate Valid()
      reads this
    {
      Filed() && forall k :: k in records ==> Normalise(k) == k
    }

    /** Every entry is filed under its own name. */
    ghost predicate Filed()
      reads this
    {
      forall k :: k in records ==> records[k].name == k
    }

    /** An empty collection. */
    constructor ()
      ensures Valid() && records == map[]
    {
      records := map[];
    }

    /** Applies one upsert to the collection. */
    method Upsert(key: string, score: Number, level: Number, date: string)
      requires Valid() && Normalise(key) == key
      modifies this
      ensures Valid()
      ensures records == Upserted(old(records), key, score, level, date)
    {
      var m := Upserted(records, key, score, level, date);
      forall k | k in m
        ensures m[k].name == k && Normalise(k) == k
      {
        if k != key {
          assert k in records;
        }
      }
      records := m;
    }

    /** Files a submission under the normalised name. */
    method Submit(name: string, sub: Submission, date: string)
      requires Valid()
      modifies this
      ensures Valid()
      ensures records == Upserted(old(records), Normalise(name), ToNumber(sub.score), ToNumber(sub.level), date)
    {
      var key := Normalise(name);
      NormaliseIdempotent(name);
      Upsert(key, ToNumber(sub.score), ToNumber(sub.level), date);
    }

    /** A key among `keys` whose score is highest. */
    method BestKey(keys: set<string>) returns (best: string)
      requires keys != {} && keys <= records.Keys
      ensures best in keys
      ensures forall k :: k in keys ==> NumLe(records[k].score, records[best].score)
    {
      best :| best in keys;
      var rest := keys - {best};
      while rest != {}
        invariant rest <= keys && best in keys
        invariant forall k :: k in keys && k !in rest ==> NumLe(records[k].score, records[best].score)
        decreases |rest|
      {
        var k :| k in rest;
        if !NumLe(records[k].score, records[best].score) {
          best := k;
        }
        rest := rest - {k};
      }
    }

    /** `find({}).sort({score: -1}).limit(10)`. */
    method TopTen() returns (top: seq<Record>)
      requires Filed()
      ensures TopOf(records, top)
    {
      var left := records.Keys;
      top := [];
      while |top| < 10 && left != {}
        invariant |top| <= 10 && Ranked(records, top, left)
        decreases |left|
      {
        var k := BestKey(left);
        RankedStep(records, top, left, k);
        top := top + [records[k]];
        left := left - {k};
      }
    }
  }

  /** `top` is a top ten of `m`: ten entries of `m` (all of them when there
      are fewer), each once, by non-increasing score, and no entry left out
      scores higher than one listed. Entries with equal scores may come in
      any order. */
  ghost predicate TopOf(m: map<string, Record>, top: seq<Record>)
  {
    && |top| == (if |m| < 10 then |m| else 10)
    && (forall i :: 0 <= i < |top| ==> top[i].name in m && m[top[i].name] == top[i])
    && (forall i, j :: 0 <= i < j < |top| ==> top[i].name != top[j].name)
    && (forall i, j :: 0 <= i < j < |top| ==> NumLe(top[j].score, top[i].score))
    && (forall k, i :: k in m && k !in Names(top) && 0 <= i < |top| ==> NumLe(m[k].score, top[i].score))
  }

  /** `top` lists, best first, the entries of `m` not in `left`, and none of
      `left` scores above any of them. */
  ghost predicate Ranked(m: map<string, Record>, top: seq<Record>, left: set<string>)
  {
    && left == m.Keys - Names(top)
    && |top| + |left| == |m|
    && (forall i :: 0 <= i < |top| ==> top[i].name in m && m[top[i].name] == top[i])
    && (forall i, j :: 0 <= i < j < |top| ==> top[i].name != top[j].name)
    && (forall i, j :: 0 <= i < j < |top| ==> NumLe(top[j].score, top[i].score))
    && (forall k, i :: k in left && 0 <= i < |top| ==> NumLe(m[k].score, top[i].score))
  }

  /** Moving a best entry of `left` to the end of `top` keeps `Ranked`. */
  lemma RankedStep(m: map<string, Record>, top: seq<Record>, left: set<string>, k: string)
    requires forall n :: n in m ==> m[n].name == n
    requires Ranked(m, top, left)
    requires k in left && forall n :: n in left ==> NumLe(m[n].score, m[k].score)
    ensures Ranked(m, top + [m[k]], left - {k})
  {
    assert Names(top + [m[k]]) == Names(top) + {k};
  }

  /** The names of a list of entries. */
  ghost function Names(rs: seq<Record>): (ns: set<string>)
    ensures forall i :: 0 <= i < |rs| ==> rs[i].name in ns
  {
    if rs == [] then {} else Names(rs[..|rs| - 1]) + {rs[|rs| - 1].name}
  }

  /** POST /api/rankings on the router: validation first, then the
      connection, then the name is trimmed (a name that is not a string
      fails there) and the submission is upserted, which may itself fail. */
  method Post(store: RankingStore, sub: Submission, db: Db, now: string) returns (resp: Response)
    requires store.Valid()
    modifies store
    ensures store.Valid()
    ensures resp.status != 200 ==> store.records == old(store.records)
    ensures RouterRejects(sub) ==> resp == Response(400, false, Failure(REQUIRED))
    ensures !RouterRejects(sub) && !Connects(db) ==> resp == Response(500, false, Failure(DbError(db)))
    ensures !RouterRejects(sub) && Connects(db) && !sub.name.Str? ==> resp == Response(500, false, Failure(NOT_A_STRING))
    ensures !RouterRejects(sub) && db.QueryFails? && sub.name.Str? ==> resp == Response(500, false, Failure(db.error))
    ensures !RouterRejects(sub) && db.Connected? && sub.name.Str? ==>
              resp == Response(200, false, Success)
              && store.records == Upserted(old(store.records), Normalise(sub.name.s),
                                           ToNumber(sub.score), ToNumber(sub.level), now)
  {
    if RouterRejects(sub) {
      return Response(400, false, Failure(REQUIRED));
    }
    if !Connects(db) {
      return Response(500, false, Failure(DbError(db)));
    }
    if !sub.name.Str? {
      return Response(500, false, Failure(NOT_A_STRING));
    }
    if db.QueryFails? {
      return Response(500, false, Failure(db.error));
    }
    store.Submit(sub.name.s, sub, now);
    resp := Response(200, false, Success);
  }

  /** GET /api/rankings on the router: the top ten, or the connection or
      query error. */
  method Get(store: RankingStore, db: Db) returns (resp: Response)
    requires store.Valid()
    ensures !Connects(db) ==> resp == Response(500, false, Failure(DbError(db)))
    ensures db.QueryFails? ==> resp == Response(500, false, Failure(db.error))
    ensures db.Connected? ==>
              resp.status == 200 && !resp.cors && resp.body.Listing?
              && TopOf(store.records, resp.body.records)
  {
    if !Connects(db) {
      return Response(500, false, Failure(DbError(db)));
    }
    if db.QueryFails? {
      return Response(500, false, Failure(db.error));
    }
    var top := store.TopTen();
    resp := Response(200, false, Listing(top));
  }

  /** GET /api/rankings/test on the router: a connection report when the
      count succeeds, otherwise the error under `status: "error"`. */
  method Test(db: Db) returns (resp: Response)
    ensures db.Connected? <==> resp.status == 200
    ensures !resp.cors
    ensures db.Connected? ==> resp == Response(200, false, Diagnostic)
    ensures !Connects(db) ==> resp == Response(500, false, TestFailure(DbError(db)))
    ensures db.QueryFails? ==> resp == Response(500, false, TestFailure(db.error))
  {
    if !Connects(db) {
      return Response(500, false, TestFailure(DbError(db)));
    }
    if db.QueryFails? {
      return Response(500, false, TestFailure(db.error));
    }
    resp := Response(200, false, Diagnostic);
  }

  /** An empty collection lists as an empty sequence, not as an error. */
  method EmptyListing() returns (resp: Response)
    ensures resp == Response(200, false, Listing([]))
  {
    var store := new RankingStore();
    resp := Get(store, Connected);
  }
}

=== FILE: wrappers.dfy ===
/** The optional value used where the source has `null` or "not found". */
module Wrappers {
  datatype Option<+T> = None | Some(value: T)
}
